=== FILE: README.md ===
# Display manager: a verified model

`display_manager.py` runs the 16x2 character LCD of a Raspberry Pi / BeagleBone
appliance. Other threads hand it a list of messages (`UpdateDisplay`,
`InsertTempDisplayMessage`); each message is first expanded
(`ReplaceMessageSymbols`: the `<errorqueue>` sentinel becomes the drained
error queue, `<key>` words become configuration values) and the expanded list
is stored together with a "new messages" event. The LCD thread reads the list,
re-initialises the display and shows the messages one by one, waiting after
each and starting over as soon as the event is set. Each message is word-wrapped
onto the two 16-character lines (`lcd_write_message`) and sent to an HD44780
controller over a 4-bit GPIO bus (`lcd_byte`, `lcd_string`, `lcd_init`).

The model, one Dafny module per concern:

- `Text` (text.dfy): the CPython 3 `str` operations the code relies on —
  `split()`, `find`, `replace`, `rstrip`, `ljust` — plus the model's own
  `Join` (`'sep'.join`, which the code does not call) used to state the
  drained error text, with the
  properties used later (every split word is found, `replace` rewrites every
  occurrence from left to right, replacing a word by itself changes nothing).
- `LineFormat` (line_format.dfy): the word-wrap of `lcd_write_message`, as a
  function `Wrap` and as the loop `SplitLines`, proved equal, with the wrap
  rule stated over the words of the message.
- `Symbols` (symbols.dfy): what `ReplaceMessageSymbols` computes, as functions
  of the message, the error-queue contents and the configuration lookup.
- `Bus` (bus.dfy): the pin-level trace of every driver function (each
  `GPIO.output` and each `time.sleep`), and an independent model of an
  idealised controller already in 4-bit mode that reads such a trace: on
  each falling edge of E it latches D4..D7, and two latched nibbles make one
  byte. Lemmas prove that the traces deliver exactly the intended bytes to
  such a decoder: `lcd_byte(bits, mode)` delivers
  `bits % 256` in mode `mode`, `lcd_string` the 16 padded characters,
  `lcd_init` its six commands, `lcd_write_message` the two address commands
  and the two wrapped lines.
- `LcdDriver` (lcd_driver.dfy): class `Lcd` whose methods are the driver
  functions, written step by step as in the source and appending to an event
  log; each is proved to append exactly its `Bus` trace.
- `Channel` (channel.dfy): class `DisplayManager` holding the display list, the
  event flag and the error queue, with `SetDisplayList`, `GetDisplayList`,
  `ReplaceMessageSymbols`, `UpdateDisplay` and `InsertTempDisplayMessage`
  proved against the functions of `Symbols` and the list functions
  `ExpandList` and `TempOutcome`.
- `Renderer` (renderer.dfy): one scroll pass of the LCD thread, proved to
  write exactly the traces of the messages it shows and to stop where the
  event says.

The drained error queue `[a, b, c]` gives "a b-c", not "a-b-c": the code
writes a space after the first entry and '-' after each later one, then
strips trailing dashes (`Symbols.DrainThreeEntries`, `Symbols.DrainJoins`).

Three quirks of the code are modelled as written and stated as lemmas:
`lcd_write_message` measures every word at its FIRST occurrence in the
message, so a repeated word can keep a too-long message on line 1
(`LineFormat.RepeatedWordIsNotWrapped`); `ReplaceMessageSymbols` replaces each
placeholder word everywhere in the whole message, so a key that is a prefix of
a later key rewrites that one too (`Symbols.SubstitutePrefixKeyCascade`); and
`InsertTempDisplayMessage` compares the raw temporary list with the stored,
expanded one, so with no intervening write a temporary sentinel is never
taken down (`Channel.SentinelTempStays`).

## Model

| member | source | states |
|---|---|---|
| Text.Words | display_manager.py:359 | `split()` yields non-empty words with no whitespace in them |
| Text.WordsAreFound | display_manager.py:359-367 | every word of `split()` is found by `find` in the message, so each `idx` in the wrap loop is a real position |
| Text.Find | display_manager.py:367 | `find` returns the first index where the word occurs, or -1 exactly when it occurs nowhere |
| Text.ReplaceBySelf | display_manager.py:192 | `replace(w, w)` with a non-empty `w` leaves the message unchanged |
| Text.Replace | display_manager.py:192 | reference definition of `str.replace`: the leftmost occurrence found by `find` is replaced, the scan resumes after it, and an empty pattern inserts before every character; its properties are `Text.ReplaceBySelf`, `Symbols.ReplaceSingleKey` and `Symbols.ReplaceWithoutLt` |
| Text.RStrip | display_manager.py:184 | `rstrip('-')` returns a prefix that does not end in '-' and removes only '-' characters |
| Text.LJust | display_manager.py:402 | `ljust(16, " ")` keeps the message as a prefix, pads with spaces up to 16 and never truncates |
| LineFormat.WrapWords | display_manager.py:363-373 | the two lines of the wrap always concatenate back to the message |
| LineFormat.SplitLines | display_manager.py:359-373 | the wrap loop produces `Wrap(message)`, and line 1 + line 2 is the message |
| LineFormat.WrapWordsRule | display_manager.py:365-373 | with no word ending past column 16 the message stays on line 1; otherwise it is cut at the first occurrence of the first word that does |
| LineFormat.WrapRule | display_manager.py:359-373 | the same rule for the words of `message.split()` |
| LineFormat.ShortMessageStaysOnLineOne | display_manager.py:363-373 | a message of at most 16 characters is never wrapped |
| LineFormat.WrappedLineTwoStartsWithWord | display_manager.py:367-372 | when the message is cut, line 2 begins with a word ending past column 16 and line 1 is the text before its first occurrence |
| LineFormat.RepeatedWordIsNotWrapped | display_manager.py:367-370 | in `w b w` with `w b` fitting the line, the second `w` is measured at its first occurrence, so the whole message stays on line 1 however long it is |
| Symbols.ExpandQueueEffect | display_manager.py:172-192 | the sentinel empties the error queue; any other message leaves it unchanged |
| Symbols.Expand | display_manager.py:169-195 | reference definition of `ReplaceMessageSymbols`: the sentinel gives `DrainText` of the queue and an empty queue, any other message its `Substitute` and the queue unchanged; `Channel.DisplayManager.ReplaceMessageSymbols` is proved to compute it |
| Symbols.Drained | display_manager.py:174-179 | reference definition of the drain loop's text before the strip: each popped entry followed by a space (first) or '-' (later); characterised by `Symbols.DrainedShape` |
| Symbols.DrainText | display_manager.py:172-184 | reference definition of the sentinel's expansion: `Drained` with trailing '-' stripped; characterised by `Symbols.DrainShortQueues` and `Symbols.DrainJoins` |
| Symbols.SubstituteWords | display_manager.py:188-192 | reference definition of the substitution loop: for each word in order, a word starting with '<' has every occurrence in the whole current message replaced by its value |
| Symbols.Substitute | display_manager.py:186-192 | reference definition of placeholder expansion: `SubstituteWords` over `split()` of the original message; its properties are the `Symbols.Substitute*` lemmas |
| Symbols.PlaceholderIffLeadingLt | display_manager.py:190 | `word.find('<') == 0` holds exactly when the word starts with '<' |
| Symbols.DrainedShape | display_manager.py:174-179 | before stripping, the drained text is the first entry, a space, then every later entry followed by '-' |
| Symbols.DrainShortQueues | display_manager.py:172-184 | an empty queue expands to "" and a one-entry queue `[a]` to `a + " "` |
| Symbols.DrainJoins | display_manager.py:172-184 | with two or more entries (the last not ending in '-') the expansion is the first entry, a space, and the rest joined by '-' |
| Symbols.DrainThreeEntries | display_manager.py:172-184 | the queue `[a, b, c]` expands to "a b-c" |
| Symbols.DrainStripsEntryDashes | display_manager.py:184 | trailing dashes that belong to the last entry are stripped too: `[x, y-]` gives "x y" |
| Symbols.NoPlaceholderWithoutLt | display_manager.py:187-190 | a message without '<' has no placeholder word |
| Symbols.SubstituteNoPlaceholder | display_manager.py:186-192 | a message without placeholder words is returned unchanged |
| Symbols.SubstituteIdentity | display_manager.py:186-192 | a configuration that maps every key to itself changes no message |
| Symbols.SubstituteWordsAppend | display_manager.py:188-192 | substituting over two word lists in turn is substituting over their concatenation |
| Symbols.SubstituteSinglePlaceholder | display_manager.py:186-192 | a single `<key>` word, surrounded by whitespace, is replaced in place by its value and nothing else changes |
| Symbols.ReplaceSingleKey | display_manager.py:192 | `replace` of a key that occurs once, with no other '<' in the text, rewrites exactly that occurrence |
| Symbols.ReplaceAfterPlain | display_manager.py:192 | when the first '<' of the text starts the key, `replace` rewrites the key there and continues on the text after it |
| Symbols.ReplaceWithoutLt | display_manager.py:192 | a key starting with '<' does not occur in a text without '<', so `replace` returns the text unchanged |
| Symbols.ReplaceTwice | display_manager.py:192 | `replace` rewrites both occurrences of a key that appears twice in a text with no other '<' |
| Symbols.SubstituteRepeatedPlaceholder | display_manager.py:186-192 | a `<key>` word that appears twice is replaced at both places, and its second visit by the loop changes nothing more |
| Symbols.SubstitutePrefixKeyCascade | display_manager.py:186-192 | a key that is a prefix of a later key rewrites that key's text too: with `<a` set to "X", "<a <ab>" becomes "X Xb>"; `<ab>` is still looked up (line 191), but its `replace` finds nothing left to rewrite |
| Bus.ByteFromBits | display_manager.py:422-450 | the four high mask tests read `(bits / 16) % 16`, the four low ones `bits % 16`, and together they make `bits % 256` |
| Bus.NibbleEvents | display_manager.py:417-436 | reference definition of one half of `lcd_byte`: D4..D7 low, each raised when its mask bit is set, then the E strobe; decoded by `Bus.RunNibble` |
| Bus.ByteEvents | display_manager.py:409-457 | reference definition of the trace of `lcd_byte`: RS, the high nibble (masks 0x10..0x80), the low nibble (masks 0x01..0x08); decoded by `Bus.RunByte` |
| Bus.Step | display_manager.py:431-436 | not a source operation: the reference model of an idealised HD44780 already in 4-bit mode, latching D4..D7 on each falling edge of E and pairing nibbles from the first one |
| Bus.Run | display_manager.py:409-457 | not a source operation: the idealised 4-bit controller run over a whole trace, giving the bytes received in order; the driver traces are proved against it (`Bus.RunByte`, `Bus.InitDecodes`, `Bus.MessageDecodes`) |
| Bus.RunDataBits | display_manager.py:418-429 | clearing D4..D7 and raising those whose mask bit is set leaves exactly those lines high and delivers nothing |
| Bus.RunToggle | display_manager.py:431-436 | the E strobe latches the data lines once, on its falling edge |
| Bus.RunNibble | display_manager.py:417-436 | one half of `lcd_byte` latches the nibble read by its four masks |
| Bus.RunByte | display_manager.py:409-457 | `lcd_byte(bits, mode)` delivers exactly one byte, `bits % 256` with RS = `mode`, and leaves the controller between bytes |
| Bus.RunBytes | display_manager.py:404-405 | sending codes one after another delivers each one's low eight bits, in order |
| Bus.LineDecodes | display_manager.py:399-405 | `lcd_string` delivers exactly 16 character bytes: the message's first 16 characters, padded with spaces |
| Bus.InitEventsInOrder | display_manager.py:386-395 | the trace of `lcd_init` is its six command bytes in order |
| Bus.InitDecodes | display_manager.py:386-395 | a nibble-pairing decoder in 4-bit mode reads the trace of `lcd_init` as the command bytes 0x33, 0x32, 0x28, 0x0C, 0x06, 0x01, in order |
| Bus.MessageDecodes | display_manager.py:378-383 | showing two lines delivers 34 bytes: address 0x80, line 1, address 0xC0, line 2 |
| Bus.ShortMessageDecodes | display_manager.py:349-383 | a message that fits one line is written to line 1 padded with spaces and line 2 is blanked |
| LcdDriver.Lcd.ToggleEnable | display_manager.py:431-436 | appends the strobe: pause, E high, pulse, E low, pause |
| LcdDriver.Lcd.SendNibble | display_manager.py:417-436 | appends the clear, the raises for set mask bits, and the strobe of one nibble |
| LcdDriver.Lcd.LcdByte | display_manager.py:409-457 | appends exactly the trace of `lcd_byte`, which `Bus.RunByte` decodes |
| LcdDriver.Lcd.LcdString | display_manager.py:399-405 | the 16-step loop appends exactly the trace of the padded line |
| LcdDriver.Lcd.LcdInit | display_manager.py:386-395 | appends the six set-up commands on hardware and nothing otherwise |
| LcdDriver.Lcd.LcdWriteMessage | display_manager.py:349-383 | appends the address and line traces of the wrapped message on hardware and nothing otherwise |
| Channel.ExpandList | display_manager.py:146-150 | expanding a list gives one message per input message |
| Channel.ExpandListQueue | display_manager.py:146-150 | expanding a list empties the error queue exactly when the list holds the sentinel |
| Channel.ExpandListPointwise | display_manager.py:146-150 | the first sentinel shows the drained queue, later sentinels the empty string, other messages their substitution |
| Channel.ExpandListPlain | display_manager.py:146-150 | messages without '<' are stored exactly as given and the queue is untouched |
| Channel.TempOutcome | display_manager.py:125-139 | reference definition of the temporary-message protocol: expand and store `temp`, apply the other thread's write if any, then re-expand and store the saved list only if the list found equals the raw `temp` |
| Channel.Written | display_manager.py:102-109 | the write of another thread during the pause: a raw store keeps the queue, an `UpdateDisplay` empties it exactly when its list holds the sentinel |
| Channel.DrainTextIsNotSentinel | display_manager.py:172-184 | the expansion of the sentinel is never the sentinel itself |
| Channel.TempRestoresSaved | display_manager.py:125-139 | uncontested, a plain temporary list gives way to the plain list it covered |
| Channel.TempKeepsOtherWriter | display_manager.py:136-139 | a different list stored by another thread during the pause is kept |
| Channel.TempRestoredAfterEqualWrite | display_manager.py:137-139 | if the other thread stores exactly the raw temporary list, the saved list is restored all the same |
| Channel.TempOtherUpdateDrains | display_manager.py:125-153 | another thread's `UpdateDisplay` of a list with the sentinel during the pause leaves the queue empty, restored or not |
| Channel.TempRestoredAfterEqualUpdate | display_manager.py:136-139 | another thread's `UpdateDisplay` of plain messages equal to `temp` is taken for the temporary list, and the saved list is put back |
| Channel.SentinelTempStays | display_manager.py:132-139 | with no intervening write, a temporary `<errorqueue>` message is never taken down, and the queue is left empty (a raw store of `["<errorqueue>"]` during the pause does bring the saved list back: `Channel.TempRestoredAfterEqualWrite`) |
| Channel.DisplayManager.SetDisplayList | display_manager.py:102-109 | the stored list becomes the given messages and the event is set; the queue is untouched |
| Channel.DisplayManager.GetDisplayList | display_manager.py:113-118 | returns the caller's list with the stored list appended |
| Channel.DisplayManager.ReplaceMessageSymbols | display_manager.py:169-195 | the drain loop and the substitution loop compute `Expand`: the result and the queue left behind |
| Channel.DisplayManager.UpdateDisplay | display_manager.py:142-153 | stores `ExpandList` of the messages, leaves the queue it describes, and sets the event |
| Channel.DisplayManager.InsertTempDisplayMessage | display_manager.py:125-139 | the list and queue afterwards are `TempOutcome` of the list before, the temporary list and any intervening write |
| Renderer.ShownFrom | display_manager.py:327-341 | the number of messages shown stops right after the first wait that finds the event set, and at the end of the list otherwise |
| Renderer.ShowAt | display_manager.py:329-341 | writing one message appends its trace; the wait reports the event and leaves it clear |
| Renderer.ShowMessages | display_manager.py:327-341 | the message loop writes the traces of exactly the messages `ShownFrom` counts, in order, and leaves the event clear |
| Renderer.ScrollPass | display_manager.py:309-341 | a pass reads the list and, if it is non-empty, appends the `lcd_init` trace and the traces of the messages shown |
| Renderer.NewListStopsAfterFirst | display_manager.py:309-341 | a pass that begins with the event set stops after its first message, as happens when a list is stored while the LCD thread idles on an empty list (lines 312-316 never clear the event); a list stored during a scroll wait has its event consumed by the running pass |
| Renderer.QuietPassShowsAll | display_manager.py:327-341 | with the event clear and no other writer, a pass shows every message |

## Left out

- Threads, `Event` and `Lock`: every operation is modelled as running alone.
  Another thread's effect is an input instead. `fired(i)` says whether the
  event was set during the wait after message `i`. The `intervening` argument
  of `InsertTempDisplayMessage` is at most one write another thread made
  during its pause: a raw `SetDisplayList` or an `UpdateDisplay`
  (`Channel.Write`). Several writes during one pause (say an `UpdateDisplay`
  that drains the queue, then a raw `SetDisplayList`) can combine into an
  outcome no single `Write` expresses. The
  model does not capture a write that lands between the steps of
  `InsertTempDisplayMessage` other than the pause.
- All timing (`time.sleep`, `E_PULSE`, `E_DELAY`, `LCD_SCROLL_TIME`,
  `DISPLAY_TIMER`). A pause on the bus is a `Sleep` event that names the pause but has no duration.
- `WriteLCD.run`'s outer loops are not modelled beyond one pass. That covers
  `GetThreadRunFlag`, the 0.1 s idle sleep, and repeating a pass until the
  event is set. `Renderer.ScrollPass` is one iteration, and it re-reads the
  list. The code repeats a pass over the list it already read, so the two
  differ whenever a list is stored between the last wait of one pass and the
  start of the next (or without setting the event): the code then shows the
  old list's first message once more before its first wait finds the event
  and it re-reads.
- `WriteLCD.__init__` (its `GPIO.setup` calls and its own `lcd_init()`
  call; `Lcd.LcdInit` models that function itself), `RunDisplayTimer`, `AudioSignal`,
  `kklog`, `main` and the `kk_hw_emulator.lcdmessage1` mirror string are left
  out. They do not affect the display list or the bus.
- `RunBBBHW()` is the constant `hw` of an `Lcd`.
- `GetConfigurationValue` is a function parameter `config`, always defined.
- `fsm_error_queue` is a sequence held by `DisplayManager`.
- `LCD_CHR` and `LCD_CMD` are defined only when running on hardware. The model
  defines them always, which is the only case in which they are used.
- Characters are reduced to their low eight bits. `ord` can exceed 255, and
  the masks 0x01..0x80 then read only its low eight bits. The model delivers
  `ord(c) % 256` and does not model what a real controller shows for such
  characters.
- Bus.Step: the decoder pairs nibbles from the first falling edge of E, as an
  HD44780 already in 4-bit mode does. A real controller powers up in 8-bit
  mode, where the nibbles 3, 3, 3, 2 of `0x33, 0x32` are four separate
  instructions that switch it to 4-bit mode (and `0x33` passes through 8-bit
  mode again on re-initialisation). That mode and the resynchronisation are
  not modelled, so `Bus.InitDecodes` states the bytes a nibble-pairing
  decoder reads, not the instructions the controller executes, and `Idle`
  assumes the nibble alignment the sequence is there to restore.
- Strings are Python 3 `str`: `split()` uses the Unicode whitespace of
  `str.isspace`, and `ord` of a character can exceed 255. Python 2 byte
  strings are not modelled.
- The pin numbers `LCD_RS` … `LCD_D7` are names (`Pin`), not GPIO numbers.

=== FILE: bus.dfy ===
/**
 * The HD44780 4-bit bus driver. Every `GPIO.output` is recorded as an
 * event (pin, level) in a log and every `time.sleep` as an opaque pause
 * marker. The partner of the driver is a decoder that reads a log as an
 * idealised controller already in 4-bit mode does: on each falling edge of
 * E it latches the four data lines and RS, and two latched nibbles (high,
 * then low) make a byte. The controller's power-on 8-bit mode, and the
 * resynchronisation `lcd_init` performs from it, are not modelled.
 */
module Bus {
  import opened Wrappers
  import opened Text
  import opened LineFormat

  /** The six wired pins: register select, enable and data lines 4 to 7. */
  datatype Pin = RS | E | D4 | D5 | D6 | D7

  /** The two timing constants, kept only as markers. */
  datatype Pause = EDelay | EPulse

  /** One step on the bus: a pin driven to a level (true is GPIO.HIGH), or a pause. */
  datatype BusEvent = Output(pin: Pin, high: bool) | Sleep(pause: Pause)

  /** RS level for character data (GPIO.HIGH) and for commands (GPIO.LOW). */
  const LcdChr: bool := true
  const LcdCmd: bool := false

  /** Display RAM addresses of the two lines, sent as commands. */
  const LcdLine1: nat := 0x80
  const LcdLine2: nat := 0xC0

  /** The command bytes `lcd_init` sends, in order. */
  const InitCommands: seq<nat> := [0x33, 0x32, 0x28, 0x0C, 0x06, 0x01]

  /** `bits & mask == mask` for a single-bit `mask`. */
  predicate MaskSet(bits: nat, mask: nat)
    requires mask > 0
  {
    (bits / mask) % 2 == 1
  }

  /** The four data lines driven low. */
  function DataLow(): seq<BusEvent>
  {
    [Output(D4, false), Output(D5, false), Output(D6, false), Output(D7, false)]
  }

  /** A data line raised only when its bit is set. */
  function RaiseIf(pin: Pin, bitSet: bool): seq<BusEvent>
  {
    if bitSet then [Output(pin, true)] else []
  }

  /** Toggling 'Enable': settle, E high, pulse width, E low, settle. */
  function Toggle(): seq<BusEvent>
  {
    [Sleep(EDelay), Output(E, true), Sleep(EPulse), Output(E, false), Sleep(EDelay)]
  }

  /** One nibble: clear the data lines, raise D4..D7 for the bits `m4`..`m7` of `bits`, strobe E. */
  function NibbleEvents(bits: nat, m4: nat, m5: nat, m6: nat, m7: nat): seq<BusEvent>
    requires m4 > 0 && m5 > 0 && m6 > 0 && m7 > 0
  {
    DataLow() + RaiseIf(D4, MaskSet(bits, m4)) + RaiseIf(D5, MaskSet(bits, m5)) +
    RaiseIf(D6, MaskSet(bits, m6)) + RaiseIf(D7, MaskSet(bits, m7)) + Toggle()
  }

  /** The trace of `lcd_byte(bits, mode)`: RS, the high nibble (0x10..0x80), the low nibble (0x01..0x08). */
  function ByteEvents(bits: nat, mode: bool): seq<BusEvent>
  {
    [Output(RS, mode)] + NibbleEvents(bits, 0x10, 0x20, 0x40, 0x80) + NibbleEvents(bits, 0x01, 0x02, 0x04, 0x08)
  }

  /** The traces of sending each of `codes` in turn, in one mode. */
  function BytesEvents(codes: seq<nat>, mode: bool): seq<BusEvent>
  {
    if codes == [] then []
    else BytesEvents(codes[..|codes| - 1], mode) + ByteEvents(codes[|codes| - 1], mode)
  }

  /** `message.ljust(16, " ")`, of which `lcd_string` sends the first 16 characters. */
  function Padded(message: string): string
  {
    LJust(message, LcdWidth, ' ')
  }

  /** The 16 character codes `lcd_string` sends: `ord` of each padded character. */
  function LineCodes(message: string): (codes: seq<nat>)
  {
    var p := Padded(message);
    seq(LcdWidth, i requires 0 <= i < LcdWidth => p[i] as nat)
  }

  /** The trace of `lcd_string(message)`. */
  function LineEvents(message: string): seq<BusEvent>
  {
    BytesEvents(LineCodes(message), LcdChr)
  }

  /** The trace of `lcd_init()` on hardware. */
  function InitEvents(): seq<BusEvent>
  {
    BytesEvents(InitCommands, LcdCmd)
  }

  /** The trace of the hardware branch of `lcd_write_message` for the two wrapped lines. */
  function MessageEvents(line1: string, line2: string): seq<BusEvent>
  {
    ByteEvents(LcdLine1, LcdCmd) + LineEvents(line1) + ByteEvents(LcdLine2, LcdCmd) + LineEvents(line2)
  }

  /** The trace of `lcd_write_message(message)`: the wrapped lines on hardware, nothing otherwise. */
  function WriteEvents(message: string, hw: bool): seq<BusEvent>
  {
    if hw then MessageEvents(Wrap(message).0, Wrap(message).1) else []
  }

  // ---------------------------------------------------------------------
  // The display controller's side of the bus
  // ---------------------------------------------------------------------

  /** A nibble latched on a falling edge of E, with the RS level at that moment. */
  datatype Nibble = Nibble(rs: bool, value: nat)

  /** The pin levels the controller sees, and a latched high nibble awaiting its low half. */
  datatype Latch = Latch(rs: bool, e: bool, d4: bool, d5: bool, d6: bool, d7: bool, pending: Option<Nibble>)

  /** A byte the controller received: RS true for character data, false for a command. */
  datatype Transfer = Transfer(rs: bool, value: nat)

  /** Between bytes: E is low and no half byte is pending. */
  predicate Idle(s: Latch)
  {
    !s.e && s.pending.None?
  }

  function BitValue(b: bool): nat
  {
    if b then 1 else 0
  }

  /** The value on D4..D7 (D4 the least significant). */
  function DataValue(s: Latch): nat
  {
    BitValue(s.d4) + 2 * BitValue(s.d5) + 4 * BitValue(s.d6) + 8 * BitValue(s.d7)
  }

  /** The latch of a falling edge of E. */
  function Latched(s: Latch): Latch
  {
    s.(e := false, pending := if s.pending.None? then Some(Nibble(s.rs, DataValue(s))) else None)
  }

  /** The byte a falling edge of E completes, if a high nibble was pending. */
  function Completed(s: Latch): seq<Transfer>
  {
    if s.pending.None? then [] else [Transfer(s.pending.value.rs, 16 * s.pending.value.value + DataValue(s))]
  }

  /** The controller's reaction to one event, and the bytes it completes. */
  function Step(s: Latch, ev: BusEvent): (Latch, seq<Transfer>)
  {
    match ev
    case Sleep(_) => (s, [])
    case Output(pin, level) =>
      match pin
      case RS => (s.(rs := level), [])
      case D4 => (s.(d4 := level), [])
      case D5 => (s.(d5 := level), [])
      case D6 => (s.(d6 := level), [])
      case D7 => (s.(d7 := level), [])
      case E =>
        if s.e && !level then (Latched(s), Completed(s)) else (s.(e := level), [])
  }

  /** The controller's state after a trace, and the bytes it received, in order. */
  function Run(s: Latch, evs: seq<BusEvent>): (Latch, seq<Transfer>)
    decreases |evs|
  {
    if evs == [] then (s, [])
    else
      var first := Step(s, evs[0]);
      var rest := Run(first.0, evs[1..]);
      (rest.0, first.1 + rest.1)
  }

  /** Decoding two traces one after the other is decoding their concatenation. */
  lemma {:induction false} RunAppend(s: Latch, a: seq<BusEvent>, b: seq<BusEvent>)
    ensures Run(s, a + b) == (Run(Run(s, a).0, b).0, Run(s, a).1 + Run(Run(s, a).0, b).1)
    decreases |a|
  {
    if a == [] {
      assert a + b == b;
      assert Run(s, a) == (s, []);
      assert [] + Run(s, b).1 == Run(s, b).1;
    } else {
      var first := Step(s, a[0]);
      assert (a + b)[0] == a[0];
      assert (a + b)[1..] == a[1..] + b;
      RunAppend(first.0, a[1..], b);
      var mid := Run(first.0, a[1..]);
      var last := Run(mid.0, b);
      assert first.1 + (mid.1 + last.1) == (first.1 + mid.1) + last.1;
    }
  }

  // ---------------------------------------------------------------------
  // Properties of the driver's traces
  // ---------------------------------------------------------------------

  /** Dividing by 2^k is halving k times. */
  lemma Halvings(x: nat)
    ensures x / 4 == x / 2 / 2 && x / 8 == x / 4 / 2 && x / 16 == x / 8 / 2
  {
  }

  /** A quotient and remainder by 16 are determined by any decomposition `16 * q + s` with `s < 16`. */
  lemma DivMod16(x: nat, q: nat, s: nat)
    requires x == 16 * q + s && s < 16
    ensures x % 16 == s && x / 16 == q
  {
  }

  /** The low four bits of `x`, each read as `x / 2^k % 2`, add up to `x % 16`. */
  lemma NibbleFromBits(x: nat)
    ensures x % 16 == x % 2 + 2 * ((x / 2) % 2) + 4 * ((x / 4) % 2) + 8 * ((x / 8) % 2)
  {
    Halvings(x);
    var x1, x2, x3, x4 := x / 2, x / 4, x / 8, x / 16;
    var b0, b1, b2, b3 := x % 2, x1 % 2, x2 % 2, x3 % 2;
    assert x == b0 + 2 * x1;
    assert x1 == b1 + 2 * x2;
    assert x2 == b2 + 2 * x3;
    assert x3 == b3 + 2 * x4;
    DivMod16(x, x4, b0 + 2 * b1 + 4 * b2 + 8 * b3);
  }

  /**
   * The masks of the low nibble (0x01..0x08) read `b % 16`, those of the
   * high nibble (0x10..0x80) read `(b / 16) % 16`, and the two nibbles
   * reassemble `b % 256`.
   */
  lemma ByteFromBits(b: nat)
    ensures b % 16 == BitValue(MaskSet(b, 0x01)) + 2 * BitValue(MaskSet(b, 0x02)) +
                      4 * BitValue(MaskSet(b, 0x04)) + 8 * BitValue(MaskSet(b, 0x08))
    ensures (b / 16) % 16 == BitValue(MaskSet(b, 0x10)) + 2 * BitValue(MaskSet(b, 0x20)) +
                             4 * BitValue(MaskSet(b, 0x40)) + 8 * BitValue(MaskSet(b, 0x80))
    ensures b % 256 == 16 * ((b / 16) % 16) + b % 16
  {
    LowNibbleBits(b);
    HighNibbleBits(b);
    ByteFromNibbles(b);
  }

  lemma LowNibbleBits(b: nat)
    ensures b % 16 == BitValue(MaskSet(b, 0x01)) + 2 * BitValue(MaskSet(b, 0x02)) +
                      4 * BitValue(MaskSet(b, 0x04)) + 8 * BitValue(MaskSet(b, 0x08))
  {
    NibbleFromBits(b);
  }

  lemma HighNibbleBits(b: nat)
    ensures (b / 16) % 16 == BitValue(MaskSet(b, 0x10)) + 2 * BitValue(MaskSet(b, 0x20)) +
                             4 * BitValue(MaskSet(b, 0x40)) + 8 * BitValue(MaskSet(b, 0x80))
  {
    var h := b / 16;
    NibbleFromBits(h);
    HighDivisions(b);
  }

  lemma HighDivisions(b: nat)
    ensures b / 16 == b / 0x10 && b / 16 / 2 == b / 0x20 && b / 16 / 4 == b / 0x40 && b / 16 / 8 == b / 0x80
  {
  }

  /** A quotient and remainder by 256 are determined by any decomposition `256 * q + r` with `r < 256`. */
  lemma DivMod256(x: nat, q: nat, r: nat)
    requires x == 256 * q + r && r < 256
    ensures x % 256 == r
  {
  }

  lemma ByteFromNibbles(b: nat)
    ensures b % 256 == 16 * ((b / 16) % 16) + b % 16
  {
    var h := b / 16;
    var lo, hh, hl := b % 16, h / 16, h % 16;
    assert b == 16 * h + lo;
    assert h == 16 * hh + hl;
    DivMod256(b, hh, 16 * hl + lo);
  }

  // ---------------------------------------------------------------------
  // What the controller receives
  // ---------------------------------------------------------------------

  /** The controller state with the four data lines set as given. */
  function WithData(s: Latch, d4: bool, d5: bool, d6: bool, d7: bool): Latch
  {
    s.(d4 := d4, d5 := d5, d6 := d6, d7 := d7)
  }

  /** The value of the four bits `m4`..`m7` of `bits`, `m4` the least significant. */
  function MaskValue(bits: nat, m4: nat, m5: nat, m6: nat, m7: nat): nat
    requires m4 > 0 && m5 > 0 && m6 > 0 && m7 > 0
  {
    BitValue(MaskSet(bits, m4)) + 2 * BitValue(MaskSet(bits, m5)) +
    4 * BitValue(MaskSet(bits, m6)) + 8 * BitValue(MaskSet(bits, m7))
  }

  lemma RunSingle(s: Latch, ev: BusEvent)
    ensures Run(s, [ev]) == Step(s, ev)
  {
    assert [ev][1..] == [];
    assert Step(s, ev).1 + [] == Step(s, ev).1;
  }

  /** Running a trace is stepping its first event, then running the rest. */
  lemma RunCons(s: Latch, ev: BusEvent, rest: seq<BusEvent>)
    ensures Run(s, [ev] + rest) == (Run(Step(s, ev).0, rest).0, Step(s, ev).1 + Run(Step(s, ev).0, rest).1)
  {
    assert ([ev] + rest)[0] == ev;
    assert ([ev] + rest)[1..] == rest;
  }

  lemma RunDataLow(s: Latch)
    ensures Run(s, DataLow()) == (WithData(s, false, false, false, false), [])
  {
    var a := s.(d4 := false);
    var b := a.(d5 := false);
    var c := b.(d6 := false);
    var d := c.(d7 := false);
    RunSingle(c, Output(D7, false));
    RunCons(b, Output(D6, false), [Output(D7, false)]);
    assert [Output(D6, false)] + [Output(D7, false)] == [Output(D6, false), Output(D7, false)];
    RunCons(a, Output(D5, false), [Output(D6, false), Output(D7, false)]);
    assert [Output(D5, false)] + [Output(D6, false), Output(D7, false)] == DataLow()[1..];
    RunCons(s, Output(D4, false), DataLow()[1..]);
    assert [Output(D4, false)] + DataLow()[1..] == DataLow();
  }

  lemma RunRaiseIf(s: Latch, pin: Pin, bitSet: bool)
    requires pin != E
    ensures Run(s, RaiseIf(pin, bitSet)) == (if bitSet then Step(s, Output(pin, true)).0 else s, [])
  {
    if bitSet {
      RunSingle(s, Output(pin, true));
    }
  }

  /** A pause changes nothing the controller sees. */
  lemma RunSleep(s: Latch, p: Pause, rest: seq<BusEvent>)
    ensures Run(s, [Sleep(p)] + rest) == Run(s, rest)
  {
    RunCons(s, Sleep(p), rest);
    assert [] + Run(s, rest).1 == Run(s, rest).1;
  }

  /** Raising E from low only records the level. */
  lemma RunRise(s: Latch, rest: seq<BusEvent>)
    requires !s.e
    ensures Run(s, [Output(E, true)] + rest) == Run(s.(e := true), rest)
  {
    RunCons(s, Output(E, true), rest);
    assert [] + Run(s.(e := true), rest).1 == Run(s.(e := true), rest).1;
  }

  lemma StepFall(s: Latch)
    requires s.e
    ensures Step(s, Output(E, false)) == (Latched(s), Completed(s))
  {
  }

  /** A strobe with E low latches the data lines: as a high nibble, or as the low nibble completing a byte. */
  lemma RunToggle(s: Latch)
    requires !s.e
    ensures Run(s, Toggle()) == (Latched(s), Completed(s))
  {
    var fall := [Output(E, false), Sleep(EDelay)];
    var pulse := [Sleep(EPulse)] + fall;
    var rise := [Output(E, true)] + pulse;
    calc {
      Run(s, Toggle());
      { assert Toggle() == [Sleep(EDelay)] + rise; }
      Run(s, [Sleep(EDelay)] + rise);
      { RunSleep(s, EDelay, rise); }
      Run(s, rise);
      { RunRise(s, pulse); }
      Run(s.(e := true), pulse);
      { RunSleep(s.(e := true), EPulse, fall); }
      Run(s.(e := true), fall);
      { RunFall(s.(e := true)); }
      (Latched(s.(e := true)), Completed(s.(e := true)));
      { assert Latched(s.(e := true)) == Latched(s); }
      (Latched(s), Completed(s));
    }
  }

  /** E falling, then the settling pause: the strobe's latch takes effect. */
  lemma RunFall(s: Latch)
    requires s.e
    ensures Run(s, [Output(E, false), Sleep(EDelay)]) == (Latched(s), Completed(s))
  {
    StepFall(s);
    RunCons(s, Output(E, false), [Sleep(EDelay)]);
    RunSingle(Latched(s), Sleep(EDelay));
    assert [Output(E, false)] + [Sleep(EDelay)] == [Output(E, false), Sleep(EDelay)];
    assert Completed(s) + [] == Completed(s);
  }

  /** Clearing the data lines, then raising those whose bit is set, leaves exactly those lines high. */
  lemma RunDataBits(s: Latch, b4: bool, b5: bool, b6: bool, b7: bool)
    ensures Run(s, DataLow() + RaiseIf(D4, b4) + RaiseIf(D5, b5) + RaiseIf(D6, b6) + RaiseIf(D7, b7)) ==
            (WithData(s, b4, b5, b6, b7), [])
  {
    var e0 := DataLow();
    var e1 := e0 + RaiseIf(D4, b4);
    var e2 := e1 + RaiseIf(D5, b5);
    var e3 := e2 + RaiseIf(D6, b6);
    var s0 := WithData(s, false, false, false, false);
    RunDataLow(s);
    RunAppend(s, e0, RaiseIf(D4, b4));
    RunRaiseIf(s0, D4, b4);
    var s1 := WithData(s, b4, false, false, false);
    assert Run(s, e1) == (s1, []);
    RunAppend(s, e1, RaiseIf(D5, b5));
    RunRaiseIf(s1, D5, b5);
    var s2 := WithData(s, b4, b5, false, false);
    assert Run(s, e2) == (s2, []);
    RunAppend(s, e2, RaiseIf(D6, b6));
    RunRaiseIf(s2, D6, b6);
    var s3 := WithData(s, b4, b5, b6, false);
    assert Run(s, e3) == (s3, []);
    RunAppend(s, e3, RaiseIf(D7, b7));
    RunRaiseIf(s3, D7, b7);
  }

  /** Setting the data lines and strobing E latches exactly the lines that were raised. */
  lemma RunDataStrobe(s: Latch, b4: bool, b5: bool, b6: bool, b7: bool)
    requires !s.e
    ensures Run(s, DataLow() + RaiseIf(D4, b4) + RaiseIf(D5, b5) + RaiseIf(D6, b6) + RaiseIf(D7, b7) + Toggle()) ==
            (Latched(WithData(s, b4, b5, b6, b7)), Completed(WithData(s, b4, b5, b6, b7)))
  {
    var data := DataLow() + RaiseIf(D4, b4) + RaiseIf(D5, b5) + RaiseIf(D6, b6) + RaiseIf(D7, b7);
    var t := WithData(s, b4, b5, b6, b7);
    RunDataBits(s, b4, b5, b6, b7);
    RunAppend(s, data, Toggle());
    RunToggle(t);
    assert [] + Completed(t) == Completed(t);
  }

  /** One nibble of `lcd_byte`, sent with E low: the data lines carry the masked bits when E falls. */
  lemma RunNibble(s: Latch, bits: nat, m4: nat, m5: nat, m6: nat, m7: nat)
    requires m4 > 0 && m5 > 0 && m6 > 0 && m7 > 0
    requires !s.e
    ensures var t := WithData(s, MaskSet(bits, m4), MaskSet(bits, m5), MaskSet(bits, m6), MaskSet(bits, m7));
      DataValue(t) == MaskValue(bits, m4, m5, m6, m7) &&
      Run(s, NibbleEvents(bits, m4, m5, m6, m7)) == (Latched(t), Completed(t))
  {
    RunDataStrobe(s, MaskSet(bits, m4), MaskSet(bits, m5), MaskSet(bits, m6), MaskSet(bits, m7));
  }

  /**
   * `lcd_byte(bits, mode)` between bytes: the controller receives exactly
   * one byte, `bits % 256` in mode `mode`, and is between bytes again with
   * RS at `mode`.
   */
  lemma RunByte(s: Latch, bits: nat, mode: bool)
    requires Idle(s)
    ensures Idle(Run(s, ByteEvents(bits, mode)).0)
    ensures Run(s, ByteEvents(bits, mode)).0.rs == mode
    ensures Run(s, ByteEvents(bits, mode)).1 == [Transfer(mode, bits % 256)]
  {
    var hi := [Output(RS, mode)] + NibbleEvents(bits, 0x10, 0x20, 0x40, 0x80);
    var lo := NibbleEvents(bits, 0x01, 0x02, 0x04, 0x08);
    RunHighHalf(s, bits, mode);
    var s1 := Run(s, hi).0;
    RunAppend(s, hi, lo);
    RunNibble(s1, bits, 0x01, 0x02, 0x04, 0x08);
    MaskValuesMakeByte(bits);
  }

  /** RS and the high nibble of `lcd_byte`: nothing is received yet, the high nibble is pending. */
  lemma RunHighHalf(s: Latch, bits: nat, mode: bool)
    requires Idle(s)
    ensures var r := Run(s, [Output(RS, mode)] + NibbleEvents(bits, 0x10, 0x20, 0x40, 0x80));
      r.1 == [] && !r.0.e && r.0.rs == mode &&
      r.0.pending == Some(Nibble(mode, MaskValue(bits, 0x10, 0x20, 0x40, 0x80)))
  {
    var rs := [Output(RS, mode)];
    var hi := NibbleEvents(bits, 0x10, 0x20, 0x40, 0x80);
    RunSingle(s, Output(RS, mode));
    RunAppend(s, rs, hi);
    RunNibble(s.(rs := mode), bits, 0x10, 0x20, 0x40, 0x80);
  }

  /** The high-nibble masks and the low-nibble masks together read the low eight bits. */
  lemma MaskValuesMakeByte(bits: nat)
    ensures 16 * MaskValue(bits, 0x10, 0x20, 0x40, 0x80) + MaskValue(bits, 0x01, 0x02, 0x04, 0x08) == bits % 256
  {
    ByteFromBits(bits);
  }

  /** What the controller should receive for `codes` sent in one mode: each code's low eight bits. */
  function Transfers(codes: seq<nat>, mode: bool): (r: seq<Transfer>)
    ensures |r| == |codes|
  {
    seq(|codes|, i requires 0 <= i < |codes| => Transfer(mode, codes[i] % 256))
  }

  /** Sending bytes one after another delivers them, in order, and leaves the controller between bytes. */
  lemma {:induction false} RunBytes(s: Latch, codes: seq<nat>, mode: bool)
    requires Idle(s)
    ensures Idle(Run(s, BytesEvents(codes, mode)).0)
    ensures Run(s, BytesEvents(codes, mode)).1 == Transfers(codes, mode)
    decreases |codes|
  {
    if codes == [] {
      assert Run(s, []) == (s, []);
    } else {
      var init, last := codes[..|codes| - 1], codes[|codes| - 1];
      RunBytes(s, init, mode);
      var mid := Run(s, BytesEvents(init, mode));
      RunAppend(s, BytesEvents(init, mode), ByteEvents(last, mode));
      RunByte(mid.0, last, mode);
      TransfersSnoc(codes, mode);
    }
  }

  /** The transfers for one more code are those for the codes before it, then its own. */
  lemma TransfersSnoc(codes: seq<nat>, mode: bool)
    requires codes != []
    ensures Transfers(codes, mode) ==
      Transfers(codes[..|codes| - 1], mode) + [Transfer(mode, codes[|codes| - 1] % 256)]
  {
  }

  /** The 16 characters `lcd_string(message)` should deliver: the message, padded with spaces, then cut. */
  function LineTransfers(message: string): (r: seq<Transfer>)
    ensures |r| == LcdWidth
  {
    seq(LcdWidth, i requires 0 <= i < LcdWidth =>
      Transfer(LcdChr, (if i < |message| then message[i] as nat else ' ' as nat) % 256))
  }

  /**
   * `lcd_string` delivers exactly 16 character bytes: the message's first
   * 16 characters (each reduced to its low eight bits), padded with spaces.
   */
  lemma LineDecodes(s: Latch, message: string)
    requires Idle(s)
    ensures Idle(Run(s, LineEvents(message)).0)
    ensures Run(s, LineEvents(message)).1 == LineTransfers(message)
  {
    RunBytes(s, LineCodes(message), LcdChr);
    var p := Padded(message);
    forall i | 0 <= i < LcdWidth
      ensures Transfers(LineCodes(message), LcdChr)[i] == LineTransfers(message)[i]
    {
      if i < |message| {
        assert p[..|message|][i] == message[i];
      }
    }
  }

  /** Sending one more byte extends the trace by that byte's trace. */
  lemma BytesEventsSnoc(codes: seq<nat>, c: nat, mode: bool)
    ensures BytesEvents(codes + [c], mode) == BytesEvents(codes, mode) + ByteEvents(c, mode)
  {
    assert (codes + [c])[..|codes|] == codes;
  }

  /** The trace of `lcd_init` is its six command bytes, one after the other. */
  lemma InitEventsInOrder()
    ensures InitEvents() ==
      ByteEvents(0x33, LcdCmd) + ByteEvents(0x32, LcdCmd) + ByteEvents(0x28, LcdCmd) +
      ByteEvents(0x0C, LcdCmd) + ByteEvents(0x06, LcdCmd) + ByteEvents(0x01, LcdCmd)
  {
    var c0: seq<nat> := [];
    var c1 := c0 + [0x33];
    var c2 := c1 + [0x32];
    var c3 := c2 + [0x28];
    var c4 := c3 + [0x0C];
    var c5 := c4 + [0x06];
    var c6 := c5 + [0x01];
    assert c6 == InitCommands;
    BytesEventsSnoc(c0, 0x33, LcdCmd);
    assert BytesEvents(c0, LcdCmd) + ByteEvents(0x33, LcdCmd) == ByteEvents(0x33, LcdCmd);
    BytesEventsSnoc(c1, 0x32, LcdCmd);
    BytesEventsSnoc(c2, 0x28, LcdCmd);
    BytesEventsSnoc(c3, 0x0C, LcdCmd);
    BytesEventsSnoc(c4, 0x06, LcdCmd);
    BytesEventsSnoc(c5, 0x01, LcdCmd);
  }

  /** A decoder in 4-bit mode reads the trace of `lcd_init` as its six set-up command bytes, in order. */
  lemma InitDecodes(s: Latch)
    requires Idle(s)
    ensures Idle(Run(s, InitEvents()).0)
    ensures Run(s, InitEvents()).1 ==
      [Transfer(LcdCmd, 0x33), Transfer(LcdCmd, 0x32), Transfer(LcdCmd, 0x28),
       Transfer(LcdCmd, 0x0C), Transfer(LcdCmd, 0x06), Transfer(LcdCmd, 0x01)]
  {
    RunBytes(s, InitCommands, LcdCmd);
    InitTransfers();
  }

  /** Every set-up command fits in a byte, so each is delivered unchanged. */
  lemma InitTransfers()
    ensures Transfers(InitCommands, LcdCmd) ==
      [Transfer(LcdCmd, 0x33), Transfer(LcdCmd, 0x32), Transfer(LcdCmd, 0x28),
       Transfer(LcdCmd, 0x0C), Transfer(LcdCmd, 0x06), Transfer(LcdCmd, 0x01)]
  {
  }

  /**
   * Showing two lines delivers 34 bytes: the line-1 address command, the 16
   * characters of line 1, the line-2 address command, the 16 of line 2.
   */
  lemma MessageDecodes(s: Latch, line1: string, line2: string)
    requires Idle(s)
    ensures Idle(Run(s, MessageEvents(line1, line2)).0)
    ensures Run(s, MessageEvents(line1, line2)).1 ==
      [Transfer(LcdCmd, LcdLine1)] + LineTransfers(line1) + [Transfer(LcdCmd, LcdLine2)] + LineTransfers(line2)
    ensures |Run(s, MessageEvents(line1, line2)).1| == 34
  {
    var a := ByteEvents(LcdLine1, LcdCmd) + LineEvents(line1);
    var b := ByteEvents(LcdLine2, LcdCmd) + LineEvents(line2);
    ConcatAssoc(ByteEvents(LcdLine1, LcdCmd) + LineEvents(line1), ByteEvents(LcdLine2, LcdCmd), LineEvents(line2));
    RunAppend(s, a, b);
    AddressThenLine(s, LcdLine1, line1);
    AddressThenLine(Run(s, a).0, LcdLine2, line2);
    ConcatAssoc([Transfer(LcdCmd, LcdLine1)] + LineTransfers(line1), [Transfer(LcdCmd, LcdLine2)], LineTransfers(line2));
  }

  /** A cursor command followed by `lcd_string(line)`: the command, then the line's 16 characters. */
  lemma AddressThenLine(s: Latch, address: nat, line: string)
    requires Idle(s) && address < 256
    ensures Idle(Run(s, ByteEvents(address, LcdCmd) + LineEvents(line)).0)
    ensures Run(s, ByteEvents(address, LcdCmd) + LineEvents(line)).1 ==
      [Transfer(LcdCmd, address)] + LineTransfers(line)
  {
    RunByte(s, address, LcdCmd);
    RunAppend(s, ByteEvents(address, LcdCmd), LineEvents(line));
    LineDecodes(Run(s, ByteEvents(address, LcdCmd)).0, line);
  }

  /**
   * `lcd_write_message` of a message that fits one line: line 1 receives
   * the message padded with spaces, and line 2 is blanked with 16 spaces.
   */
  lemma ShortMessageDecodes(s: Latch, message: string)
    requires Idle(s) && |message| <= LcdWidth
    ensures Run(s, WriteEvents(message, true)).1 ==
      [Transfer(LcdCmd, LcdLine1)] + LineTransfers(message) + [Transfer(LcdCmd, LcdLine2)] + LineTransfers("")
  {
    ShortMessageStaysOnLineOne(message);
    MessageDecodes(s, message, "");
  }
}

=== FILE: channel.dfy ===
/**
 * The display manager's shared state: the list of messages the LCD thread
 * scrolls through, the "new messages" event, and the queue of pending error
 * messages. The operations are those other threads call to change what is
 * shown; each is proved against a function of the state it starts from.
 */
module Channel {
  import opened Wrappers
  import opened Text
  import opened Symbols

  /**
   * Expanding `msgs` one after another, as `UpdateDisplay` does: the
   * expanded messages, and the error queue left once every sentinel has
   * drained it.
   */
  function ExpandList(msgs: seq<string>, queue: seq<string>, config: string -> string): (r: (seq<string>, seq<string>))
    ensures |r.0| == |msgs|
  {
    if msgs == [] then ([], queue)
    else
      var prev := ExpandList(msgs[..|msgs| - 1], queue, config);
      var last := Expand(msgs[|msgs| - 1], prev.1, config);
      (prev.0 + [last.0], last.1)
  }

  /** Some message of `msgs` is the error-queue sentinel. */
  predicate HasSentinel(msgs: seq<string>)
  {
    exists i :: 0 <= i < |msgs| && msgs[i] == ErrorQueueToken
  }

  /**
   * What another thread does to the display list during the pause of
   * `InsertTempDisplayMessage`: store a list as it is (`SetDisplayList`), or
   * expand and store one (`UpdateDisplay`), which may drain the error queue.
   */
  datatype Write = Stored(msgs: seq<string>) | Updated(msgs: seq<string>)

  /** The list shown and the error queue left after the write `w`, from error queue `queue`. */
  function Written(w: Write, queue: seq<string>, config: string -> string): (r: (seq<string>, seq<string>))
    ensures w.Stored? ==> r == (w.msgs, queue)
    ensures w.Updated? ==> r.1 == (if HasSentinel(w.msgs) then [] else queue)
  {
    match w
    case Stored(msgs) => (msgs, queue)
    case Updated(msgs) =>
      ExpandListQueue(msgs, queue, config);
      ExpandList(msgs, queue, config)
  }

  /**
   * The list shown after a temporary message: `saved` was shown, `temp` was
   * expanded and shown, and during the pause another thread may have made
   * the write `intervening`. The saved list is put back (expanded again) only
   * if the list found after the pause equals the raw `temp`. Result: the list
   * shown and the error queue left.
   */
  function TempOutcome(saved: seq<string>, temp: seq<string>, queue: seq<string>,
                       config: string -> string, intervening: Option<Write>): (seq<string>, seq<string>)
  {
    var shown := ExpandList(temp, queue, config);
    var found := if intervening.Some? then Written(intervening.value, shown.1, config) else shown;
    if temp == found.0 then ExpandList(saved, found.1, config) else found
  }

  /** A list holds the sentinel when its front part does or its last message is the sentinel. */
  lemma HasSentinelSnoc(msgs: seq<string>)
    requires msgs != []
    ensures HasSentinel(msgs) <==> HasSentinel(msgs[..|msgs| - 1]) || msgs[|msgs| - 1] == ErrorQueueToken
  {
    var p := msgs[..|msgs| - 1];
    if HasSentinel(msgs) && msgs[|msgs| - 1] != ErrorQueueToken {
      var k :| 0 <= k < |msgs| && msgs[k] == ErrorQueueToken;
      assert p[k] == msgs[k];
    }
    if HasSentinel(p) {
      var k :| 0 <= k < |p| && p[k] == ErrorQueueToken;
      assert msgs[k] == p[k];
    }
  }

  /** Expanding a list empties the error queue exactly when the list holds the sentinel. */
  lemma {:induction false} ExpandListQueue(msgs: seq<string>, queue: seq<string>, config: string -> string)
    ensures ExpandList(msgs, queue, config).1 == if HasSentinel(msgs) then [] else queue
    decreases |msgs|
  {
    if msgs != [] {
      ExpandListQueue(msgs[..|msgs| - 1], queue, config);
      HasSentinelSnoc(msgs);
    }
  }

  /**
   * What each expanded message is: the first sentinel shows the drained
   * queue, any later one the empty string, and every other message its
   * placeholder substitution.
   */
  lemma {:induction false} ExpandListPointwise(msgs: seq<string>, queue: seq<string>, config: string -> string)
    ensures forall i :: 0 <= i < |msgs| ==>
      ExpandList(msgs, queue, config).0[i] ==
        if msgs[i] == ErrorQueueToken then DrainText(if HasSentinel(msgs[..i]) then [] else queue)
        else Substitute(msgs[i], config)
    decreases |msgs|
  {
    if msgs != [] {
      var n := |msgs|;
      var p := msgs[..n - 1];
      ExpandListPointwise(p, queue, config);
      ExpandListQueue(p, queue, config);
      var r := ExpandList(msgs, queue, config).0;
      assert r == ExpandList(p, queue, config).0 + [Expand(msgs[n - 1], ExpandList(p, queue, config).1, config).0];
      forall i | 0 <= i < n
        ensures r[i] == if msgs[i] == ErrorQueueToken then DrainText(if HasSentinel(msgs[..i]) then [] else queue)
                        else Substitute(msgs[i], config)
      {
        if i < n - 1 {
          assert msgs[..i] == p[..i] && msgs[i] == p[i];
        }
      }
    }
  }

  /** Messages without a '<' are shown exactly as given and leave the queue alone. */
  lemma {:induction false} ExpandListPlain(msgs: seq<string>, queue: seq<string>, config: string -> string)
    requires forall i, j :: 0 <= i < |msgs| && 0 <= j < |msgs[i]| ==> msgs[i][j] != '<'
    ensures ExpandList(msgs, queue, config) == (msgs, queue)
    decreases |msgs|
  {
    if msgs != [] {
      var n := |msgs|;
      var m := msgs[n - 1];
      ExpandListPlain(msgs[..n - 1], queue, config);
      assert |m| == 0 || m[0] != '<';
      assert ErrorQueueToken[0] == '<';
      assert m != ErrorQueueToken;
      NoPlaceholderWithoutLt(m);
      SubstituteNoPlaceholder(m, config);
      assert msgs[..n - 1] + [m] == msgs;
    }
  }

  /** Uncontested, a plain temporary list gives way to the plain list it covered, and the queue is untouched. */
  lemma TempRestoresSaved(saved: seq<string>, temp: seq<string>, queue: seq<string>, config: string -> string)
    requires forall i, j :: 0 <= i < |saved| && 0 <= j < |saved[i]| ==> saved[i][j] != '<'
    requires forall i, j :: 0 <= i < |temp| && 0 <= j < |temp[i]| ==> temp[i][j] != '<'
    ensures TempOutcome(saved, temp, queue, config, None) == (saved, queue)
  {
    ExpandListPlain(temp, queue, config);
    ExpandListPlain(saved, queue, config);
  }

  /** A different list stored by another thread during the pause is kept; the saved list is dropped. */
  lemma TempKeepsOtherWriter(saved: seq<string>, temp: seq<string>, queue: seq<string>,
                             config: string -> string, other: seq<string>)
    requires other != temp
    ensures TempOutcome(saved, temp, queue, config, Some(Stored(other))) == (other, ExpandList(temp, queue, config).1)
  {
  }

  /**
   * When another thread's `UpdateDisplay` during the pause expands the
   * sentinel, the error queue ends empty, whether or not the saved list is
   * put back.
   */
  lemma TempOtherUpdateDrains(saved: seq<string>, temp: seq<string>, queue: seq<string>,
                              config: string -> string, other: seq<string>)
    requires HasSentinel(other)
    ensures TempOutcome(saved, temp, queue, config, Some(Updated(other))).1 == []
  {
    ExpandListQueue(saved, [], config);
  }

  /**
   * When another thread's `UpdateDisplay` during the pause stores plain
   * messages equal to `temp`, the saved list is put back: the raw compare
   * cannot tell the two writes apart.
   */
  lemma TempRestoredAfterEqualUpdate(saved: seq<string>, temp: seq<string>, queue: seq<string>, config: string -> string)
    requires forall i, j :: 0 <= i < |temp| && 0 <= j < |temp[i]| ==> temp[i][j] != '<'
    ensures TempOutcome(saved, temp, queue, config, Some(Updated(temp))) == ExpandList(saved, queue, config)
  {
    ExpandListPlain(temp, queue, config);
  }

  /**
   * The sentinel shown as a temporary message is never taken down: its
   * expansion is never the raw sentinel, so the list found after the pause
   * never equals `temp`.
   */
  lemma SentinelTempStays(saved: seq<string>, queue: seq<string>, config: string -> string)
    ensures TempOutcome(saved, [ErrorQueueToken], queue, config, None) == ([DrainText(queue)], [])
  {
    DrainTextIsNotSentinel(queue);
    var shown := ExpandList([ErrorQueueToken], queue, config);
    assert [ErrorQueueToken][..0] == [];
    assert ExpandList([], queue, config) == ([], queue);
    assert [] + [DrainText(queue)] == [DrainText(queue)];
    assert shown.0 == [DrainText(queue)];
    assert shown.0 != [ErrorQueueToken] by {
      assert shown.0[0] != ErrorQueueToken;
    }
  }

  /** The drained queue text is never the sentinel: it is empty, or it holds a space. */
  lemma DrainTextIsNotSentinel(q: seq<string>)
    ensures DrainText(q) != ErrorQueueToken
  {
    if q == [] {
      DrainShortQueues("");
    } else if |q| == 1 {
      DrainShortQueues(q[0]);
      assert q == [q[0]];
      var t := DrainText(q);
      assert t[|t| - 1] == ' ';
    } else {
      DrainTextSpaceAfterFirst(q);
      NotSentinelWithSpace(DrainText(q), |q[0]|);
    }
  }

  /** With two or more entries, the first entry is followed by a space that survives the strip. */
  lemma DrainTextSpaceAfterFirst(q: seq<string>)
    requires |q| >= 2
    ensures |DrainText(q)| > |q[0]| && DrainText(q)[|q[0]|] == ' '
  {
    DrainedShape(q);
    assert Drained(q)[|q[0]|] == ' ';
  }

  /** The sentinel holds no space. */
  lemma NotSentinelWithSpace(t: string, k: nat)
    requires k < |t| && t[k] == ' '
    ensures t != ErrorQueueToken
  {
    if |t| == |ErrorQueueToken| {
      assert ErrorQueueToken[k] != ' ';
    }
  }

  /** When the other writer stores exactly the raw temporary list, the saved list is put back all the same. */
  lemma TempRestoredAfterEqualWrite(saved: seq<string>, temp: seq<string>, queue: seq<string>, config: string -> string)
    ensures TempOutcome(saved, temp, queue, config, Some(Stored(temp))) ==
      ExpandList(saved, ExpandList(temp, queue, config).1, config)
  {
  }

  /** The display list, the "new messages" event and the pending error messages. */
  class DisplayManager {
    /** `global_display_list`: the expanded messages the LCD thread scrolls through. */
    var displayList: seq<string>
    /** Whether `NewMessageEvent` is set. */
    var newMessage: bool
    /** `fsm_error_queue`, front first. */
    var errorQueue: seq<string>

    constructor (queue: seq<string>)
      ensures displayList == [] && !newMessage && errorQueue == queue
    {
      displayList := [];
      newMessage := false;
      errorQueue := queue;
    }

    /** `SetDisplayList`: rebuild the list from `msgs`, then signal new messages. */
    method SetDisplayList(msgs: seq<string>)
      modifies this
      ensures displayList == msgs && newMessage
      ensures errorQueue == old(errorQueue)
    {
      displayList := [];
      var i := 0;
      while i < |msgs|
        invariant 0 <= i <= |msgs|
        invariant displayList == msgs[..i]
        invariant errorQueue == old(errorQueue)
      {
        displayList := displayList + [msgs[i]];
        assert msgs[..i + 1] == msgs[..i] + [msgs[i]];
        i := i + 1;
      }
      assert msgs[..|msgs|] == msgs;
      newMessage := true;
    }

    /**
     * `GetDisplayList`: append the current list to the caller's list `acc`
     * (which is not cleared first) and hand it back.
     */
    method GetDisplayList(acc: seq<string>) returns (r: seq<string>)
      ensures r == acc + displayList
    {
      r := acc;
      var i := 0;
      while i < |displayList|
        invariant 0 <= i <= |displayList|
        invariant r == acc + displayList[..i]
      {
        r := r + [displayList[i]];
        assert displayList[..i + 1] == displayList[..i] + [displayList[i]];
        i := i + 1;
      }
      assert displayList[..|displayList|] == displayList;
    }

    /**
     * `ReplaceMessageSymbols`: the sentinel is replaced by the drained error
     * queue; any other message has its placeholder words replaced by their
     * configuration values.
     */
    method ReplaceMessageSymbols(input: string, config: string -> string) returns (r: string)
      modifies this
      ensures (r, errorQueue) == Expand(input, old(errorQueue), config)
      ensures displayList == old(displayList) && newMessage == old(newMessage)
    {
      r := input;
      if input == ErrorQueueToken {
        r := "";
        var separator := " ";
        ghost var popped := 0;
        while errorQueue != []
          invariant popped <= |old(errorQueue)| && errorQueue == old(errorQueue)[popped..]
          invariant r == Drained(old(errorQueue)[..popped])
          invariant separator == Separator(popped)
          invariant displayList == old(displayList) && newMessage == old(newMessage)
          decreases |errorQueue|
        {
          var entry := errorQueue[0];
          errorQueue := errorQueue[1..];
          r := r + entry + separator;
          separator := "-";
          assert old(errorQueue)[..popped + 1][..popped] == old(errorQueue)[..popped];
          popped := popped + 1;
        }
        assert old(errorQueue)[..popped] == old(errorQueue);
        r := RStrip(r, '-');
      } else {
        var words := Words(r);
        var i := 0;
        while i < |words|
          invariant 0 <= i <= |words|
          invariant SubstituteWords(r, words[i..], config) == Substitute(input, config)
        {
          var word := words[i];
          if Find(word, "<") == 0 {
            var value := config(word);
            r := Replace(r, word, value);
          }
          assert words[i..][1..] == words[i + 1..];
          i := i + 1;
        }
      }
    }

    /** `UpdateDisplay`: expand every message in order, then store the expanded list. */
    method UpdateDisplay(msgs: seq<string>, config: string -> string)
      modifies this
      ensures (displayList, errorQueue) == ExpandList(msgs, old(errorQueue), config)
      ensures newMessage
    {
      var expanded: seq<string> := [];
      var i := 0;
      while i < |msgs|
        invariant 0 <= i <= |msgs|
        invariant (expanded, errorQueue) == ExpandList(msgs[..i], old(errorQueue), config)
      {
        var m := ReplaceMessageSymbols(msgs[i], config);
        assert msgs[..i + 1][..i] == msgs[..i];
        expanded := expanded + [m];
        i := i + 1;
      }
      assert msgs[..|msgs|] == msgs;
      SetDisplayList(expanded);
    }

    /**
     * `InsertTempDisplayMessage`: remember the list, show `temp`, pause, and
     * put the remembered list back if the list found is still the raw
     * `temp`. `intervening` is the write another thread made during the
     * pause, if any.
     */
    method InsertTempDisplayMessage(temp: seq<string>, config: string -> string, intervening: Option<Write>)
      modifies this
      ensures (displayList, errorQueue) == TempOutcome(old(displayList), temp, old(errorQueue), config, intervening)
      ensures newMessage
    {
      var saved := GetDisplayList([]);
      assert saved == old(displayList);
      UpdateDisplay(temp, config);
      // time.sleep(DISPLAY_TIMER * 2): another thread may store a list meanwhile
      if intervening.Some? {
        match intervening.value
        case Stored(msgs) => SetDisplayList(msgs);
        case Updated(msgs) => UpdateDisplay(msgs, config);
      }
      var found := GetDisplayList([]);
      assert found == displayList;
      if temp == found {
        UpdateDisplay(saved, config);
      }
    }
  }
}

=== FILE: lcd_driver.dfy ===
/**
 * The LCD driver functions as they run: each pin output and each pause is
 * appended to the display's event log, and every operation is proved to
 * produce exactly the trace its specification function in module Bus
 * describes.
 */
module LcdDriver {
  import opened Text
  import opened LineFormat
  import opened Bus

  /** One display on the GPIO pins, with everything driven onto its bus recorded in order. */
  class Lcd {
    /** `RunBBBHW()`: whether real hardware is attached (otherwise nothing is driven). */
    const hw: bool
    /** Every `GPIO.output` and `time.sleep` so far, oldest first. */
    var log: seq<BusEvent>

    constructor (hw: bool)
      ensures this.hw == hw && log == []
    {
      this.hw := hw;
      log := [];
    }

    /** `GPIO.output(pin, level)`. */
    method GpioOutput(pin: Pin, high: bool)
      modifies this
      ensures log == old(log) + [Output(pin, high)]
    {
      log := log + [Output(pin, high)];
    }

    /** `time.sleep(E_DELAY)` or `time.sleep(E_PULSE)`. */
    method TimeSleep(p: Pause)
      modifies this
      ensures log == old(log) + [Sleep(p)]
    {
      log := log + [Sleep(p)];
    }

    /** The four data lines driven low. */
    method ClearData()
      modifies this
      ensures log == old(log) + DataLow()
    {
      GpioOutput(D4, false);
      GpioOutput(D5, false);
      GpioOutput(D6, false);
      GpioOutput(D7, false);
    }

    /** `if bits & mask == mask: GPIO.output(pin, GPIO.HIGH)`, the test already made. */
    method RaiseLine(pin: Pin, bitSet: bool)
      modifies this
      ensures log == old(log) + RaiseIf(pin, bitSet)
    {
      if bitSet {
        GpioOutput(pin, true);
      }
    }

    /** Toggle 'Enable': settle, E high, pulse width, E low, settle. */
    method ToggleEnable()
      modifies this
      ensures log == old(log) + Toggle()
    {
      TimeSleep(EDelay);
      GpioOutput(E, true);
      TimeSleep(EPulse);
      GpioOutput(E, false);
      TimeSleep(EDelay);
    }

    /** One half of `lcd_byte`: clear D4..D7, raise those whose mask bit is set in `bits`, strobe E. */
    method SendNibble(bits: nat, m4: nat, m5: nat, m6: nat, m7: nat)
      requires m4 > 0 && m5 > 0 && m6 > 0 && m7 > 0
      modifies this
      ensures log == old(log) + NibbleEvents(bits, m4, m5, m6, m7)
    {
      var b4, b5, b6, b7 := MaskSet(bits, m4), MaskSet(bits, m5), MaskSet(bits, m6), MaskSet(bits, m7);
      ghost var start := log;
      ClearData();
      ghost var sent := DataLow();
      RaiseLine(D4, b4);
      ConcatAssoc(start, sent, RaiseIf(D4, b4));
      sent := sent + RaiseIf(D4, b4);
      RaiseLine(D5, b5);
      ConcatAssoc(start, sent, RaiseIf(D5, b5));
      sent := sent + RaiseIf(D5, b5);
      RaiseLine(D6, b6);
      ConcatAssoc(start, sent, RaiseIf(D6, b6));
      sent := sent + RaiseIf(D6, b6);
      RaiseLine(D7, b7);
      ConcatAssoc(start, sent, RaiseIf(D7, b7));
      sent := sent + RaiseIf(D7, b7);
      ToggleEnable();
      ConcatAssoc(start, sent, Toggle());
    }

    /** `lcd_byte(bits, mode)`: RS, then the high nibble and the low nibble, each strobed by E. */
    method LcdByte(bits: nat, mode: bool)
      modifies this
      ensures log == old(log) + ByteEvents(bits, mode)
    {
      ghost var start := log;
      GpioOutput(RS, mode);
      // High bits
      SendNibble(bits, 0x10, 0x20, 0x40, 0x80);
      ConcatAssoc(start, [Output(RS, mode)], NibbleEvents(bits, 0x10, 0x20, 0x40, 0x80));
      // Low bits
      SendNibble(bits, 0x01, 0x02, 0x04, 0x08);
      ConcatAssoc(start, [Output(RS, mode)] + NibbleEvents(bits, 0x10, 0x20, 0x40, 0x80),
                  NibbleEvents(bits, 0x01, 0x02, 0x04, 0x08));
    }

    /** `lcd_string(message)`: the message padded with spaces to 16, its first 16 characters sent as data. */
    method LcdString(message: string)
      modifies this
      ensures log == old(log) + LineEvents(message)
    {
      var padded := Padded(message);
      ghost var codes := LineCodes(message);
      var i := 0;
      while i < LcdWidth
        invariant 0 <= i <= LcdWidth
        invariant log == old(log) + BytesEvents(codes[..i], LcdChr)
      {
        LcdByte(padded[i] as nat, LcdChr);
        ConcatAssoc(old(log), BytesEvents(codes[..i], LcdChr), ByteEvents(codes[i], LcdChr));
        BytesEventsSnoc(codes[..i], codes[i], LcdChr);
        assert codes[..i] + [codes[i]] == codes[..i + 1];
        i := i + 1;
      }
      assert codes[..LcdWidth] == codes;
    }

    /** `lcd_init()`: on hardware, the six set-up commands; otherwise nothing. */
    method LcdInit()
      modifies this
      ensures log == old(log) + (if hw then InitEvents() else [])
    {
      if hw {
        ghost var start := log;
        LcdByte(0x33, LcdCmd);
        ghost var sent := ByteEvents(0x33, LcdCmd);
        LcdByte(0x32, LcdCmd);
        ConcatAssoc(start, sent, ByteEvents(0x32, LcdCmd));
        sent := sent + ByteEvents(0x32, LcdCmd);
        LcdByte(0x28, LcdCmd);
        ConcatAssoc(start, sent, ByteEvents(0x28, LcdCmd));
        sent := sent + ByteEvents(0x28, LcdCmd);
        LcdByte(0x0C, LcdCmd);
        ConcatAssoc(start, sent, ByteEvents(0x0C, LcdCmd));
        sent := sent + ByteEvents(0x0C, LcdCmd);
        LcdByte(0x06, LcdCmd);
        ConcatAssoc(start, sent, ByteEvents(0x06, LcdCmd));
        sent := sent + ByteEvents(0x06, LcdCmd);
        LcdByte(0x01, LcdCmd);
        ConcatAssoc(start, sent, ByteEvents(0x01, LcdCmd));
        InitEventsInOrder();
      } else {
        assert old(log) + [] == old(log);
      }
    }

    /**
     * `lcd_write_message(message)`: wrap the message into two lines and, on
     * hardware, address line 1, write it, address line 2, write it.
     */
    method LcdWriteMessage(message: string)
      modifies this
      ensures log == old(log) + WriteEvents(message, hw)
    {
      var line1, line2 := SplitLines(message);
      if hw {
        ghost var start := log;
        LcdByte(LcdLine1, LcdCmd);
        ghost var sent := ByteEvents(LcdLine1, LcdCmd);
        LcdString(line1);
        ConcatAssoc(start, sent, LineEvents(line1));
        sent := sent + LineEvents(line1);
        LcdByte(LcdLine2, LcdCmd);
        ConcatAssoc(start, sent, ByteEvents(LcdLine2, LcdCmd));
        sent := sent + ByteEvents(LcdLine2, LcdCmd);
        LcdString(line2);
        ConcatAssoc(start, sent, LineEvents(line2));
      } else {
        assert old(log) + [] == old(log);
      }
    }
  }
}

=== FILE: line_format.dfy ===
/**
 * Word-wrap of one display message onto the two 16-character lines of the
 * LCD. A message is cut just before the first whitespace word whose end
 * column, measured from the word's FIRST occurrence in the message, passes
 * the line width.
 */
module LineFormat {
  import opened Text

  /** Characters per LCD line. */
  const LcdWidth: nat := 16

  /** The column just past `word`, located by its first occurrence in `message`. */
  function EndColumn(message: string, word: string): int
  {
    Find(message, word) + |word|
  }

  /** Each of the first `n` words ends within the line width. */
  predicate FitsBefore(message: string, words: seq<string>, n: nat)
    requires n <= |words|
  {
    forall i :: 0 <= i < n ==> EndColumn(message, words[i]) <= LcdWidth
  }

  /** The wrap decision over the remaining `words`, each of which occurs in `message`. */
  function WrapWords(message: string, words: seq<string>): (r: (string, string))
    requires forall i :: 0 <= i < |words| ==> Find(message, words[i]) >= 0
    ensures r.0 + r.1 == message
  {
    if words == [] then (message, "")
    else
      var idx := Find(message, words[0]);
      if idx + |words[0]| > LcdWidth then (message[..idx], message[idx..])
      else WrapWords(message, words[1..])
  }

  /** The pair (line 1, line 2) the message is shown as. */
  function Wrap(message: string): (r: (string, string))
  {
    WordsAreFound(message);
    WrapWords(message, Words(message))
  }

  /**
   * The loop of `lcd_write_message`: walk the words, and on the first one whose
   * end column passes the width, cut the message before it and stop.
   */
  method SplitLines(message: string) returns (line1: string, line2: string)
    ensures line1 + line2 == message
    ensures (line1, line2) == Wrap(message)
  {
    var words := Words(message);
    WordsAreFound(message);
    line1, line2 := message, "";
    var i := 0;
    while i < |words|
      invariant 0 <= i <= |words|
      invariant line1 == message && line2 == ""
      invariant WrapWords(message, words[i..]) == WrapWords(message, words)
    {
      var word := words[i];
      var idx := Find(message, word);
      if idx + |word| > LcdWidth {
        line1 := message[..idx];
        line2 := message[idx..];
        break;
      }
      assert words[i..][1..] == words[i + 1..];
      i := i + 1;
    }
  }

  /**
   * The split rule over any word list: with no word passing the width the
   * message stays on line 1; otherwise the cut is at the first occurrence of
   * the first word that passes, and every word before it ends in the width.
   */
  lemma {:induction false} WrapWordsRule(message: string, words: seq<string>)
    requires forall i :: 0 <= i < |words| ==> Find(message, words[i]) >= 0
    ensures FitsBefore(message, words, |words|) ==> WrapWords(message, words) == (message, "")
    ensures forall k :: 0 <= k < |words| && EndColumn(message, words[k]) > LcdWidth &&
                        FitsBefore(message, words, k)
                        ==> WrapWords(message, words) ==
                              (message[..Find(message, words[k])], message[Find(message, words[k])..])
  {
    if words != [] {
      var rest := words[1..];
      WrapWordsRule(message, rest);
      if EndColumn(message, words[0]) <= LcdWidth {
        assert WrapWords(message, words) == WrapWords(message, rest);
        if FitsBefore(message, words, |words|) {
          assert FitsBefore(message, rest, |rest|);
        }
        forall k | 0 < k < |words| && EndColumn(message, words[k]) > LcdWidth &&
                   FitsBefore(message, words, k)
          ensures WrapWords(message, words) ==
                  (message[..Find(message, words[k])], message[Find(message, words[k])..])
        {
          assert rest[k - 1] == words[k];
          assert FitsBefore(message, rest, k - 1);
        }
      }
    }
  }

  /** The split rule for the words of the message itself, in `split()` order. */
  lemma WrapRule(message: string)
    ensures var ws := Words(message);
      FitsBefore(message, ws, |ws|) ==> Wrap(message) == (message, "")
    ensures var ws := Words(message);
      forall k :: 0 <= k < |ws| && EndColumn(message, ws[k]) > LcdWidth && FitsBefore(message, ws, k)
                  ==> Find(message, ws[k]) >= 0 &&
                      Wrap(message) == (message[..Find(message, ws[k])], message[Find(message, ws[k])..])
  {
    WordsAreFound(message);
    WrapWordsRule(message, Words(message));
  }

  /** A message that fits on one line is never wrapped. */
  lemma ShortMessageStaysOnLineOne(message: string)
    requires |message| <= LcdWidth
    ensures Wrap(message) == (message, "")
  {
    WordsAreFound(message);
    WrapRule(message);
  }

  /**
   * When the message is cut, line 2 begins with a word that passes the
   * width, and line 1 is the text before that word's first occurrence.
   */
  lemma WrappedLineTwoStartsWithWord(message: string)
    requires Wrap(message).1 != ""
    ensures exists k :: (0 <= k < |Words(message)| &&
                         EndColumn(message, Words(message)[k]) > LcdWidth &&
                         |Wrap(message).0| == Find(message, Words(message)[k]) &&
                         OccursAt(Wrap(message).1, Words(message)[k], 0))
  {
    WordsAreFound(message);
    var ws := Words(message);
    var k := FirstOverflow(message, ws);
    WrapWordsRule(message, ws);
    var idx := Find(message, ws[k]);
    assert message[idx..][0..|ws[k]|] == message[idx..idx + |ws[k]|];
  }

  /** Index of the first word passing the width, when the wrap cut the message. */
  function FirstOverflow(message: string, words: seq<string>): (k: nat)
    requires forall i :: 0 <= i < |words| ==> Find(message, words[i]) >= 0
    requires WrapWords(message, words).1 != ""
    ensures k < |words| && EndColumn(message, words[k]) > LcdWidth
    ensures FitsBefore(message, words, k)
  {
    if EndColumn(message, words[0]) > LcdWidth then 0
    else 1 + FirstOverflow(message, words[1..])
  }

  /**
   * The first-occurrence lookup in action: in `w b w`, the second `w` is
   * measured at its first occurrence (column |w|), so when `w b` fits the
   * width no word passes it and the whole message stays on line 1, however
   * much longer than the line it is ("aaaa bbbbbbbbbb aaaa", 20 characters,
   * is one such message).
   */
  lemma RepeatedWordIsNotWrapped(w: string, b: string)
    requires Word(w) && Word(b)
    requires |w| + 1 + |b| <= LcdWidth
    ensures Wrap(w + " " + b + " " + w) == (w + " " + b + " " + w, "")
  {
    var m := w + " " + b + " " + w;
    var ws := Words(m);
    RepeatedWordWords(w, b);
    RepeatedWordColumns(w, b);
    assert FitsBefore(m, ws, |ws|);
    WrapRule(m);
  }

  lemma RepeatedWordWords(w: string, b: string)
    requires Word(w) && Word(b)
    ensures Words(w + " " + b + " " + w) == [w, b, w]
  {
    var t1 := " " + w;
    var t2 := b + t1;
    var t3 := " " + t2;
    assert w + t3 == w + " " + b + " " + w;
    calc {
      Words(w + t3);
      { WordsOfWord(w, t3); }
      [w] + Words(t3);
      { WordsSkipSpace(' ', t2); }
      [w] + Words(t2);
      { WordsOfWord(b, t1); }
      [w] + ([b] + Words(t1));
      { WordsSkipSpace(' ', w); }
      [w] + ([b] + Words(w));
      { WordsOfWord(w, []); assert w + [] == w; }
      [w, b, w];
    }
  }

  lemma RepeatedWordColumns(w: string, b: string)
    requires Word(w) && Word(b)
    ensures EndColumn(w + " " + b + " " + w, w) == |w|
    ensures EndColumn(w + " " + b + " " + w, b) <= |w| + 1 + |b|
  {
    var m := w + " " + b + " " + w;
    assert OccursAt(m, w, 0) by { assert m[..|w|] == w; }
    assert OccursAt(m, b, |w| + 1) by { assert m[|w| + 1..|w| + 1 + |b|] == b; }
  }
}

=== FILE: renderer.dfy ===
/**
 * One scroll pass of the LCD thread: read the display list, initialise the
 * display, then show the messages in order, waiting after each one and
 * stopping after the first wait that finds the "new messages" event set.
 */
module Renderer {
  import opened Text
  import opened Bus
  import opened LcdDriver
  import opened Channel

  /** The trace of `lcd_write_message` for each of `msgs`, in order. */
  function ShowEvents(msgs: seq<string>, hw: bool): seq<BusEvent>
  {
    if msgs == [] then []
    else
      ShowEvents(msgs[..|msgs| - 1], hw) + WriteEvents(msgs[|msgs| - 1], hw)
  }

  /**
   * Whether the event is set when the wait after message `i` ends: it was
   * already set when the pass began (seen at the first wait), or another
   * thread set it during this wait.
   */
  predicate SeenAt(i: nat, setAtStart: bool, fired: nat -> bool)
  {
    (i == 0 && setAtStart) || fired(i)
  }

  /** The number of messages shown, counting from message `i` of `n`. */
  function ShownFrom(i: nat, n: nat, setAtStart: bool, fired: nat -> bool): (k: nat)
    requires i <= n
    ensures i <= k <= n
    ensures i < n ==> i < k
    ensures forall j :: i <= j < k - 1 ==> !SeenAt(j, setAtStart, fired)
    ensures k < n ==> SeenAt(k - 1, setAtStart, fired)
    decreases n - i
  {
    if i == n then n
    else if SeenAt(i, setAtStart, fired) then i + 1
    else ShownFrom(i + 1, n, setAtStart, fired)
  }

  /**
   * A pass over the list: `lcd_init`, then each message until a wait finds
   * the event set, which is then cleared. `fired(i)` says whether another
   * thread set the event during the wait after message `i`. Returns the
   * list read and the number of messages shown.
   */
  method ScrollPass(dm: DisplayManager, lcd: Lcd, fired: nat -> bool) returns (messages: seq<string>, shown: nat)
    ensures messages == old(dm.displayList)
    modifies dm`newMessage, lcd
    ensures shown == if messages == [] then 0 else ShownFrom(0, |messages|, old(dm.newMessage), fired)
    ensures lcd.log == old(lcd.log) +
      (if messages == [] then [] else (if lcd.hw then InitEvents() else []) + ShowEvents(messages[..shown], lcd.hw))
    ensures dm.newMessage == (old(dm.newMessage) && messages == [])
    ensures dm.displayList == old(dm.displayList) && dm.errorQueue == old(dm.errorQueue)
  {
    messages := dm.GetDisplayList([]);
    shown := 0;
    if |messages| > 0 {
      lcd.LcdInit();
      shown := ShowMessages(dm, lcd, messages, fired);
      ConcatAssoc(old(lcd.log), if lcd.hw then InitEvents() else [], ShowEvents(messages[..shown], lcd.hw));
    } else {
      assert old(lcd.log) + [] == old(lcd.log);
    }
  }

  /** The loop of a pass: write each message, wait, and stop at the first wait that finds the event set. */
  method ShowMessages(dm: DisplayManager, lcd: Lcd, messages: seq<string>, fired: nat -> bool) returns (shown: nat)
    requires messages != []
    modifies dm`newMessage, lcd
    ensures shown == ShownFrom(0, |messages|, old(dm.newMessage), fired)
    ensures lcd.log == old(lcd.log) + ShowEvents(messages[..shown], lcd.hw)
    ensures !dm.newMessage
  {
    ghost var n := |messages|;
    ghost var setAtStart := dm.newMessage;
    shown := 0;
    var i := 0;
    while i < |messages|
      invariant 0 <= i <= n && shown == i
      invariant ShownFrom(i, n, setAtStart, fired) == ShownFrom(0, n, setAtStart, fired)
      invariant lcd.log == old(lcd.log) + ShowEvents(messages[..i], lcd.hw)
      invariant dm.newMessage == (i == 0 && setAtStart)
    {
      var stop := ShowAt(dm, lcd, messages, i, fired, old(lcd.log));
      shown := i + 1;
      if stop {
        break;
      }
      i := i + 1;
    }
  }

  /** One step of the loop: write message `i`, wait, and clear the event if the wait found it set. */
  method ShowAt(dm: DisplayManager, lcd: Lcd, messages: seq<string>, i: nat, fired: nat -> bool,
                ghost base: seq<BusEvent>) returns (stop: bool)
    requires i < |messages|
    requires lcd.log == base + ShowEvents(messages[..i], lcd.hw)
    modifies dm`newMessage, lcd
    ensures lcd.log == base + ShowEvents(messages[..i + 1], lcd.hw)
    ensures stop == (old(dm.newMessage) || fired(i)) && !dm.newMessage
  {
    var message := messages[i];
    lcd.LcdWriteMessage(message);
    ShowEventsSnoc(messages, i, lcd.hw);
    ConcatAssoc(base, ShowEvents(messages[..i], lcd.hw), WriteEvents(message, lcd.hw));
    // NewMessageEvent.wait(LCD_SCROLL_TIME): another thread may set the event meanwhile
    if fired(i) {
      dm.newMessage := true;
    }
    stop := dm.newMessage;
    if stop {
      dm.newMessage := false;
    }
  }

  /** Showing one more message extends the trace by that message's trace. */
  lemma ShowEventsSnoc(msgs: seq<string>, i: nat, hw: bool)
    requires i < |msgs|
    ensures ShowEvents(msgs[..i + 1], hw) ==
      ShowEvents(msgs[..i], hw) + WriteEvents(msgs[i], hw)
  {
    assert msgs[..i + 1][..i] == msgs[..i];
  }

  /**
   * A pass that begins with the event set stops after its first message.
   * This happens when a list is stored while the LCD thread idles on an
   * empty list, since the idle loop never clears the event; a list stored
   * during a scroll wait has its event consumed by the pass that was
   * running, and its first pass begins with the event clear.
   */
  lemma NewListStopsAfterFirst(n: nat, fired: nat -> bool)
    requires n > 0
    ensures ShownFrom(0, n, true, fired) == 1
  {
  }

  /** With the event clear and no other writer, a pass shows every message. */
  lemma QuietPassShowsAll(n: nat)
    ensures ShownFrom(0, n, false, _ => false) == n
  {
    QuietFrom(0, n);
  }

  lemma {:induction false} QuietFrom(i: nat, n: nat)
    requires i <= n
    ensures ShownFrom(i, n, false, _ => false) == n
    decreases n - i
  {
    if i < n {
      QuietFrom(i + 1, n);
    }
  }
}

=== FILE: symbols.dfy ===
/**
 * What `ReplaceMessageSymbols` computes, as functions of the message, the
 * pending-error queue and the configuration lookup. The stateful method
 * that drains the queue lives with the display state (module Channel).
 */
module Symbols {
  import opened Text

  /** The sentinel message that is replaced by the drained error queue. */
  const ErrorQueueToken: string := "<errorqueue>"

  /** Separator written after the `i`-th drained entry: a space after the first, '-' after the rest. */
  function Separator(i: nat): string
  {
    if i == 0 then " " else "-"
  }

  /** The text the drain loop has built after popping the entries of `q`, before `rstrip('-')`. */
  function Drained(q: seq<string>): string
  {
    if q == [] then ""
    else Drained(q[..|q| - 1]) + q[|q| - 1] + Separator(|q| - 1)
  }

  /** The expansion of the sentinel against the queue contents `q` (front first). */
  function DrainText(q: seq<string>): string
  {
    RStrip(Drained(q), '-')
  }

  /** `word.find('<') == 0`: the word is a placeholder key. */
  predicate IsPlaceholder(word: string)
  {
    Find(word, "<") == 0
  }

  /** The substitution loop over `words`, each rewriting the whole message with `replace`. */
  function SubstituteWords(msg: string, words: seq<string>, config: string -> string): string
    decreases |words|
  {
    if words == [] then msg
    else
      var w := words[0];
      var next := if IsPlaceholder(w) then Replace(msg, w, config(w)) else msg;
      SubstituteWords(next, words[1..], config)
  }

  /** Placeholder expansion of a message other than the sentinel. */
  function Substitute(input: string, config: string -> string): string
  {
    SubstituteWords(input, Words(input), config)
  }

  /**
   * `ReplaceMessageSymbols` on message `input` with error-queue contents
   * `queue`: the expanded message and the queue left behind.
   */
  function Expand(input: string, queue: seq<string>, config: string -> string): (string, seq<string>)
  {
    if input == ErrorQueueToken then (DrainText(queue), [])
    else (Substitute(input, config), queue)
  }

  /** The sentinel empties the queue; any other message leaves it as it was. */
  lemma ExpandQueueEffect(input: string, queue: seq<string>, config: string -> string)
    ensures input == ErrorQueueToken ==> Expand(input, queue, config).1 == []
    ensures input != ErrorQueueToken ==> Expand(input, queue, config).1 == queue
  {
  }

  /** A word is a placeholder exactly when it starts with '<'. */
  lemma PlaceholderIffLeadingLt(word: string)
    ensures IsPlaceholder(word) <==> (|word| > 0 && word[0] == '<')
  {
    if |word| > 0 && word[0] == '<' {
      assert OccursAt(word, "<", 0);
    }
  }

  /** Before stripping, the drained text is the first entry, a space, then each later entry followed by '-'. */
  lemma {:induction false} DrainedShape(q: seq<string>)
    requires |q| >= 2
    ensures Drained(q) == q[0] + " " + Join(q[1..], "-") + "-"
    decreases |q|
  {
    var n := |q|;
    var init := q[..n - 1];
    if n == 2 {
      assert Drained(init) == q[0] + " ";
      assert q[1..] == [q[1]];
    } else {
      DrainedShape(init);
      assert init[1..] == q[1..n - 1];
      assert q[1..][..n - 2] == q[1..n - 1];
      assert Join(q[1..], "-") == Join(q[1..n - 1], "-") + "-" + q[n - 1];
    }
  }

  /** An empty queue expands to the empty string, a single entry `a` to `a + " "`. */
  lemma DrainShortQueues(a: string)
    ensures DrainText([]) == ""
    ensures DrainText([a]) == a + " "
  {
    assert Drained([a]) == Drained([]) + a + " ";
    assert (a + " ")[|a + " "| - 1] == ' ';
  }

  /**
   * With two or more entries, and a last entry that does not end in '-',
   * the expansion is the first entry, a space, and the rest joined by '-'.
   * (So `[a, b, c]` gives "a b-c".)
   */
  lemma DrainJoins(q: seq<string>)
    requires |q| >= 2
    requires q[|q| - 1] != [] && q[|q| - 1][|q[|q| - 1]| - 1] != '-'
    ensures DrainText(q) == q[0] + " " + Join(q[1..], "-")
  {
    DrainedShape(q);
    var body := q[0] + " " + Join(q[1..], "-");
    JoinEndsWithLast(q[1..], "-");
    assert body[|body| - 1] == q[|q| - 1][|q[|q| - 1]| - 1];
    assert Drained(q) == body + "-";
    assert (body + "-")[..|body|] == body;
  }

  /** A join of a non-empty list ends with its last element. */
  lemma {:induction false} JoinEndsWithLast(xs: seq<string>, sep: string)
    requires xs != []
    ensures var j := Join(xs, sep); |j| >= |xs[|xs| - 1]| && j[|j| - |xs[|xs| - 1]|..] == xs[|xs| - 1]
  {
  }

  /** A three-entry queue expands to "a b-c": the first separator is a space, not a dash. */
  lemma DrainThreeEntries()
    ensures DrainText(["a", "b", "c"]) == "a b-c"
  {
    var q := ["a", "b", "c"];
    assert q[..2] == ["a", "b"] && q[..2][..1] == ["a"];
    assert Drained(["a"]) == "a ";
    assert Drained(["a", "b"]) == "a b-";
    assert Drained(q) == "a b-c-";
    assert "a b-c-"[..5] == "a b-c";
  }

  /**
   * Trailing '-' characters are stripped even when they belong to the last
   * entry: `["x", "y-"]` gives "x y".
   */
  lemma DrainStripsEntryDashes()
    ensures DrainText(["x", "y-"]) == "x y"
  {
    var q := ["x", "y-"];
    assert q[..1] == ["x"];
    assert Drained(["x"]) == "x ";
    assert Drained(q) == "x y--";
    assert "x y--"[..4] == "x y-";
    assert "x y-"[..3] == "x y";
  }

  /** A message without placeholder words is left unchanged. */
  lemma {:induction false} SubstituteWordsNoPlaceholder(msg: string, words: seq<string>, config: string -> string)
    requires forall i :: 0 <= i < |words| ==> !IsPlaceholder(words[i])
    ensures SubstituteWords(msg, words, config) == msg
    decreases |words|
  {
    if words != [] {
      SubstituteWordsNoPlaceholder(msg, words[1..], config);
    }
  }

  lemma SubstituteNoPlaceholder(input: string, config: string -> string)
    requires forall i :: 0 <= i < |Words(input)| ==> !IsPlaceholder(Words(input)[i])
    ensures Substitute(input, config) == input
  {
    SubstituteWordsNoPlaceholder(input, Words(input), config);
  }

  /** A configuration that maps every placeholder key to itself changes no message. */
  lemma {:induction false} SubstituteWordsIdentity(msg: string, words: seq<string>, config: string -> string)
    requires forall i :: 0 <= i < |words| ==> words[i] != []
    requires forall w :: IsPlaceholder(w) ==> config(w) == w
    ensures SubstituteWords(msg, words, config) == msg
    decreases |words|
  {
    if words != [] {
      if IsPlaceholder(words[0]) {
        ReplaceBySelf(msg, words[0]);
      }
      SubstituteWordsIdentity(msg, words[1..], config);
    }
  }

  lemma SubstituteIdentity(input: string, config: string -> string)
    requires forall w :: IsPlaceholder(w) ==> config(w) == w
    ensures Substitute(input, config) == input
  {
    SubstituteWordsIdentity(input, Words(input), config);
  }

  /** Substituting over two word lists in turn is substituting over their concatenation. */
  lemma {:induction false} SubstituteWordsAppend(msg: string, a: seq<string>, b: seq<string>, config: string -> string)
    ensures SubstituteWords(msg, a + b, config) == SubstituteWords(SubstituteWords(msg, a, config), b, config)
    decreases |a|
  {
    if a == [] {
      assert a + b == b;
    } else {
      var w := a[0];
      var next := if IsPlaceholder(w) then Replace(msg, w, config(w)) else msg;
      assert (a + b)[1..] == a[1..] + b;
      SubstituteWordsAppend(next, a[1..], b, config);
    }
  }

  /** A text without '<' has no placeholder words. */
  lemma NoPlaceholderWithoutLt(s: string)
    requires forall j :: 0 <= j < |s| ==> s[j] != '<'
    ensures forall i :: 0 <= i < |Words(s)| ==> !IsPlaceholder(Words(s)[i])
  {
    WordsAreFound(s);
    forall i | 0 <= i < |Words(s)| ensures !IsPlaceholder(Words(s)[i]) {
      var w := Words(s)[i];
      var k := Find(s, w);
      assert w[0] == s[k..k + |w|][0] == s[k];
      PlaceholderIffLeadingLt(w);
    }
  }

  /**
   * A message with exactly one '<', at the start of the word `key`: that
   * word is replaced in place by its configured value and nothing else
   * changes: `"Hello <name> today"` with `<name>` set to "Bob" becomes "Hello Bob today".
   */
  lemma SubstituteSinglePlaceholder(pre: string, key: string, post: string, config: string -> string)
    requires Word(key) && key[0] == '<'
    requires forall j :: 0 <= j < |pre| ==> pre[j] != '<'
    requires forall j :: 0 <= j < |post| ==> post[j] != '<'
    requires pre == [] || IsSpace(pre[|pre| - 1])
    requires post == [] || IsSpace(post[0])
    ensures Substitute(pre + key + post, config) == pre + config(key) + post
  {
    var input := pre + key + post;
    var v := config(key);
    var wpre, wpost := Words(pre), Words(post);
    WordsAroundKey(pre, key, post);
    NoPlaceholderWithoutLt(pre);
    NoPlaceholderWithoutLt(post);
    PlaceholderIffLeadingLt(key);
    // the words of pre change nothing
    SubstituteWordsAppend(input, wpre, [key] + wpost, config);
    SubstituteWordsNoPlaceholder(input, wpre, config);
    // key is replaced where it stands
    ReplaceSingleKey(pre, key, post, v);
    var after := pre + v + post;
    assert ([key] + wpost)[1..] == wpost;
    assert SubstituteWords(input, [key] + wpost, config) == SubstituteWords(after, wpost, config);
    // the words of post change nothing
    SubstituteWordsNoPlaceholder(after, wpost, config);
  }

  lemma WordsAroundKey(pre: string, key: string, post: string)
    requires Word(key)
    requires pre == [] || IsSpace(pre[|pre| - 1])
    requires post == [] || IsSpace(post[0])
    ensures Words(pre + key + post) == Words(pre) + ([key] + Words(post))
  {
    ConcatAssoc(pre, key, post);
    WordsConcat(pre, key + post);
    WordsOfWord(key, post);
  }

  /** `replace` of a key that occurs once, with no other '<' in the text, rewrites exactly that occurrence. */
  lemma ReplaceSingleKey(pre: string, key: string, post: string, v: string)
    requires key != [] && key[0] == '<'
    requires forall j :: 0 <= j < |pre| ==> pre[j] != '<'
    requires forall j :: 0 <= j < |post| ==> post[j] != '<'
    ensures Replace(pre + key + post, key, v) == pre + v + post
  {
    ReplaceAfterPlain(pre, key, post, v);
    ReplaceWithoutLt(post, key, v);
  }

  /** The first '<' of the text starts the key: `replace` rewrites it there and goes on after it. */
  lemma ReplaceAfterPlain(pre: string, key: string, rest: string, v: string)
    requires key != [] && key[0] == '<'
    requires forall j :: 0 <= j < |pre| ==> pre[j] != '<'
    ensures Replace(pre + key + rest, key, v) == pre + v + Replace(rest, key, v)
  {
    var input := pre + key + rest;
    assert input[|pre|..|pre| + |key|] == key;
    assert OccursAt(input, key, |pre|);
    forall j: nat | j < |pre| ensures !OccursAt(input, key, j) {
      assert input[j] == pre[j];
    }
    assert Find(input, key) == |pre|;
    ReplaceUnfold(input, key, v);
    assert input[..|pre|] == pre;
    assert input[|pre| + |key|..] == rest;
  }

  /** A key starting with '<' does not occur in a text without '<', so `replace` leaves the text alone. */
  lemma ReplaceWithoutLt(s: string, key: string, v: string)
    requires key != [] && key[0] == '<'
    requires forall j :: 0 <= j < |s| ==> s[j] != '<'
    ensures Replace(s, key, v) == s
  {
    forall j: nat ensures !OccursAt(s, key, j) {
      if j < |s| { assert s[j] != key[0]; }
    }
  }

  /**
   * `replace` rewrites every occurrence: a `<key>` word that appears twice,
   * with no other '<' in the message, is replaced at both places, and the
   * second visit of the word in the loop finds nothing left to replace.
   */
  lemma SubstituteRepeatedPlaceholder(pre: string, key: string, mid: string, post: string, config: string -> string)
    requires Word(key) && key[0] == '<'
    requires forall j :: 0 <= j < |pre| ==> pre[j] != '<'
    requires forall j :: 0 <= j < |mid| ==> mid[j] != '<'
    requires forall j :: 0 <= j < |post| ==> post[j] != '<'
    requires forall j :: 0 <= j < |config(key)| ==> config(key)[j] != '<'
    requires pre == [] || IsSpace(pre[|pre| - 1])
    requires mid != [] && IsSpace(mid[0]) && IsSpace(mid[|mid| - 1])
    requires post == [] || IsSpace(post[0])
    ensures Substitute(pre + key + mid + key + post, config) == pre + config(key) + mid + config(key) + post
  {
    var v := config(key);
    var input := pre + key + mid + key + post;
    var out := pre + v + mid + v + post;
    var wmid, wpost := Words(mid), Words(post);
    var rest := wmid + ([key] + wpost);
    WordsAroundTwoKeys(pre, key, mid, post);
    NoPlaceholderWithoutLt(pre);
    SubstituteWordsAppend(input, Words(pre), [key] + rest, config);
    SubstituteWordsNoPlaceholder(input, Words(pre), config);
    // the first visit of key replaces both occurrences
    PlaceholderIffLeadingLt(key);
    ReplaceTwice(pre, key, mid, post, v);
    SubstituteWordsStep(input, key, rest, config);
    // the words of mid change nothing
    NoPlaceholderWithoutLt(mid);
    SubstituteWordsAppend(out, wmid, [key] + wpost, config);
    SubstituteWordsNoPlaceholder(out, wmid, config);
    // the second visit of key finds no '<' left
    LtFreeFive(pre, v, mid, v, post);
    ReplaceWithoutLt(out, key, v);
    SubstituteWordsStep(out, key, wpost, config);
    NoPlaceholderWithoutLt(post);
    SubstituteWordsNoPlaceholder(out, wpost, config);
  }

  /** One turn of the substitution loop on a placeholder word. */
  lemma SubstituteWordsStep(msg: string, w: string, rest: seq<string>, config: string -> string)
    requires IsPlaceholder(w)
    ensures SubstituteWords(msg, [w] + rest, config) == SubstituteWords(Replace(msg, w, config(w)), rest, config)
  {
    assert ([w] + rest)[0] == w && ([w] + rest)[1..] == rest;
  }

  /** The words of a message holding a key twice, in `split()` order. */
  lemma WordsAroundTwoKeys(pre: string, key: string, mid: string, post: string)
    requires Word(key)
    requires pre == [] || IsSpace(pre[|pre| - 1])
    requires mid != [] && IsSpace(mid[0]) && IsSpace(mid[|mid| - 1])
    requires post == [] || IsSpace(post[0])
    ensures Words(pre + key + mid + key + post) == Words(pre) + ([key] + (Words(mid) + ([key] + Words(post))))
  {
    var tail := mid + key + post;
    ConcatAssoc(pre + key, mid, key);
    ConcatAssoc(pre + key, mid + key, post);
    WordsAroundKey(pre, key, tail);
    WordsAroundKey(mid, key, post);
  }

  /** Both occurrences of the key are rewritten. */
  lemma ReplaceTwice(pre: string, key: string, mid: string, post: string, v: string)
    requires key != [] && key[0] == '<'
    requires forall j :: 0 <= j < |pre| ==> pre[j] != '<'
    requires forall j :: 0 <= j < |mid| ==> mid[j] != '<'
    requires forall j :: 0 <= j < |post| ==> post[j] != '<'
    ensures Replace(pre + key + mid + key + post, key, v) == pre + v + mid + v + post
  {
    ConcatAssoc(pre + key, mid, key);
    ConcatAssoc(pre + key, mid + key, post);
    ReplaceAfterPlain(pre, key, mid + key + post, v);
    ReplaceSingleKey(mid, key, post, v);
    ConcatAssoc(pre + v, mid, v);
    ConcatAssoc(pre + v, mid + v, post);
  }

  /** Five texts without '<' concatenate to a text without '<'. */
  lemma LtFreeFive(a: string, b: string, c: string, d: string, e: string)
    requires forall j :: 0 <= j < |a| ==> a[j] != '<'
    requires forall j :: 0 <= j < |b| ==> b[j] != '<'
    requires forall j :: 0 <= j < |c| ==> c[j] != '<'
    requires forall j :: 0 <= j < |d| ==> d[j] != '<'
    requires forall j :: 0 <= j < |e| ==> e[j] != '<'
    ensures var s := a + b + c + d + e; forall j :: 0 <= j < |s| ==> s[j] != '<'
  {
  }

  /**
   * The loop replaces in the whole message, in `split()` order, so a key that
   * is a prefix of a later key rewrites that one too: with `<a` set to "X",
   * `"<a <ab>"` becomes "X Xb>", and `<ab>` is never substituted.
   */
  lemma SubstitutePrefixKeyCascade(k: string, t: string, config: string -> string)
    requires Word(k) && k[0] == '<'
    requires Word(t) && forall j :: 0 <= j < |t| ==> t[j] != '<'
    requires forall j :: 0 <= j < |config(k)| ==> config(k)[j] != '<'
    ensures Substitute(k + " " + k + t, config) == config(k) + " " + config(k) + t
  {
    var v := config(k);
    var kt := k + t;
    var input := k + " " + k + t;
    var out := v + " " + v + t;
    WordsOfPrefixKey(k, t);
    PlaceholderIffLeadingLt(k);
    PlaceholderIffLeadingLt(kt);
    ReplacePrefixKey(k, t, v);
    SubstituteWordsStep(input, k, [kt], config);
    LtFreeFive(v, " ", v, t, []);
    assert out + [] == out;
    ReplaceWithoutLt(out, kt, config(kt));
    SubstituteWordsStep(out, kt, [], config);
  }

  /** `split()` of `k + " " + k + t` is `[k, k + t]`. */
  lemma WordsOfPrefixKey(k: string, t: string)
    requires Word(k)
    requires forall j :: 0 <= j < |t| ==> !IsSpace(t[j])
    ensures Words(k + " " + k + t) == [k] + [k + t]
  {
    calc {
      Words(k + " " + k + t);
      { ConcatAssoc(k, " ", k); ConcatAssoc(k, " " + k, t); ConcatAssoc(" ", k, t); }
      Words(k + (" " + (k + t)));
      { WordsOfWord(k, " " + (k + t)); }
      [k] + Words(" " + (k + t));
      { WordsSkipSpace(' ', k + t); }
      [k] + Words(k + t);
      { WordsOfWord(k + t, []); assert k + t + [] == k + t; }
      [k] + [k + t];
    }
  }

  /** Visiting `k` rewrites both its own occurrence and the one inside `k + t`. */
  lemma ReplacePrefixKey(k: string, t: string, v: string)
    requires k != [] && k[0] == '<'
    requires forall j :: 0 <= j < |t| ==> t[j] != '<'
    ensures Replace(k + " " + k + t, k, v) == v + " " + v + t
  {
    ReplaceTwice([], k, " ", t, v);
    assert [] + k == k && [] + v == v;
  }
}

=== FILE: text.dfy ===
/**
 * The Python 3 string operations the display manager relies on, with the
 * semantics of CPython's `str` methods: `split()` without arguments,
 * `find`, `replace`, `rstrip` and `ljust`. `Join` (`'sep'.join`) is not
 * called by the display manager; it is used here to state the drained
 * error text.
 */
module Text {

  /** True when `c` is a character CPython's `str.isspace` (and so `str.split()`) treats as whitespace. */
  predicate IsSpace(c: char)
  {
    ('\t' <= c <= '\r') || ('\U{1C}' <= c <= '\U{1F}') || c == ' ' ||
    c == '\U{85}' || c == '\U{A0}' || c == '\U{1680}' ||
    ('\U{2000}' <= c <= '\U{200A}') || c == '\U{2028}' || c == '\U{2029}' ||
    c == '\U{202F}' || c == '\U{205F}' || c == '\U{3000}'
  }

  /** A non-empty run of non-whitespace characters: a word `split()` can return. */
  predicate Word(w: string)
  {
    w != [] && forall j :: 0 <= j < |w| ==> !IsSpace(w[j])
  }

  /** `w` occurs in `s` starting at index `i`. */
  predicate OccursAt(s: string, w: string, i: nat)
  {
    i + |w| <= |s| && s[i..i + |w|] == w
  }

  /** Length of the run of non-whitespace characters at the head of `s`. */
  function WordLength(s: string): (n: nat)
    ensures n <= |s|
    ensures forall j :: 0 <= j < n ==> !IsSpace(s[j])
    ensures n == |s| || IsSpace(s[n])
  {
    if s == [] || IsSpace(s[0]) then 0 else 1 + WordLength(s[1..])
  }

  /**
   * `s.split()`: the maximal runs of non-whitespace characters, in order.
   * Every word is non-empty and holds no whitespace.
   */
  function Words(s: string): (ws: seq<string>)
    ensures forall i :: 0 <= i < |ws| ==> ws[i] != []
    ensures forall i, j :: 0 <= i < |ws| && 0 <= j < |ws[i]| ==> !IsSpace(ws[i][j])
    decreases |s|
  {
    if s == [] then []
    else if IsSpace(s[0]) then Words(s[1..])
    else
      var n := WordLength(s);
      [s[..n]] + Words(s[n..])
  }

  /** A word of non-whitespace characters followed by whitespace (or nothing) is the first word. */
  lemma {:induction false} WordsOfWord(w: string, rest: string)
    requires Word(w)
    requires rest == [] || IsSpace(rest[0])
    ensures Words(w + rest) == [w] + Words(rest)
  {
    WordLengthOfWord(w, rest);
    assert (w + rest)[..|w|] == w;
    assert (w + rest)[|w|..] == rest;
  }

  lemma {:induction false} WordLengthOfWord(w: string, rest: string)
    requires forall j :: 0 <= j < |w| ==> !IsSpace(w[j])
    requires rest == [] || IsSpace(rest[0])
    ensures WordLength(w + rest) == |w|
  {
    if w != [] {
      WordLengthOfWord(w[1..], rest);
      assert (w + rest)[1..] == w[1..] + rest;
    } else {
      assert w + rest == rest;
    }
  }

  /** A word that ends inside `x` is not lengthened by text appended after `x`. */
  lemma {:induction false} WordLengthPrefix(x: string, y: string)
    requires WordLength(x) < |x|
    ensures WordLength(x + y) == WordLength(x)
  {
    if !IsSpace(x[0]) {
      assert (x + y)[1..] == x[1..] + y;
      WordLengthPrefix(x[1..], y);
    }
  }

  /** Splitting text that ends in whitespace, followed by more text, splits the two parts separately. */
  lemma {:induction false} WordsConcat(x: string, y: string)
    requires x == [] || IsSpace(x[|x| - 1])
    ensures Words(x + y) == Words(x) + Words(y)
    decreases |x|
  {
    if x == [] {
      assert x + y == y;
    } else if IsSpace(x[0]) {
      assert (x + y)[1..] == x[1..] + y;
      WordsConcat(x[1..], y);
    } else {
      var n := WordLength(x);
      WordLengthPrefix(x, y);
      assert (x + y)[..n] == x[..n];
      assert (x + y)[n..] == x[n..] + y;
      WordsConcat(x[n..], y);
    }
  }

  /** Leading whitespace produces no word. */
  lemma WordsSkipSpace(c: char, rest: string)
    requires IsSpace(c)
    ensures Words([c] + rest) == Words(rest)
  {
    assert ([c] + rest)[1..] == rest;
  }

  /** `s.find(w, i)` restricted to starts at or after `i`; -1 when there is none. */
  function FindFrom(s: string, w: string, i: nat): (r: int)
    requires i <= |s|
    ensures r == -1 || (i <= r && OccursAt(s, w, r))
    ensures r == -1 ==> forall j :: i <= j ==> !OccursAt(s, w, j)
    ensures r != -1 ==> forall j :: i <= j < r ==> !OccursAt(s, w, j)
    decreases |s| - i
  {
    if i + |w| > |s| then -1
    else if s[i..i + |w|] == w then i
    else FindFrom(s, w, i + 1)
  }

  /** `s.find(w)`: the first index where `w` occurs in `s`, or -1. */
  function Find(s: string, w: string): (r: int)
    ensures r == -1 <==> forall j: nat :: !OccursAt(s, w, j)
    ensures r != -1 ==> 0 <= r && r + |w| <= |s| && OccursAt(s, w, r)
    ensures r != -1 ==> forall j: nat :: j < r ==> !OccursAt(s, w, j)
  {
    FindFrom(s, w, 0)
  }

  /** An occurrence in a suffix of `s` is an occurrence in `s`, shifted by the suffix's start. */
  lemma OccursInSuffix(s: string, w: string, n: nat, j: nat)
    requires n <= |s|
    ensures OccursAt(s[n..], w, j) <==> OccursAt(s, w, n + j)
  {
    if n + j + |w| <= |s| {
      assert s[n..][j..j + |w|] == s[n + j..n + j + |w|];
    }
  }

  /** Every word of `s.split()` is found in `s`. */
  lemma {:induction false} WordsAreFound(s: string)
    ensures forall i :: 0 <= i < |Words(s)| ==> Find(s, Words(s)[i]) >= 0
    decreases |s|
  {
    if s != [] {
      var n := if IsSpace(s[0]) then 1 else WordLength(s);
      var rest := Words(s[n..]);
      WordsAreFound(s[n..]);
      assert Words(s) == if IsSpace(s[0]) then rest else [s[..n]] + rest;
      forall i | 0 <= i < |rest| ensures Find(s, rest[i]) >= 0 {
        var k := Find(s[n..], rest[i]);
        OccursInSuffix(s, rest[i], n, k);
      }
      if !IsSpace(s[0]) {
        assert OccursAt(s, s[..n], 0);
      }
    }
  }

  /**
   * `s.replace(pat, rep)`: every non-overlapping occurrence of `pat`, found
   * left to right, is replaced by `rep` and the search resumes after it; an
   * empty `pat` inserts `rep` before every character and at the end, as
   * CPython does.
   */
  function Replace(s: string, pat: string, rep: string): string
    decreases |s|
  {
    if pat == [] then
      (if s == [] then rep else rep + [s[0]] + Replace(s[1..], pat, rep))
    else
      var k := Find(s, pat);
      if k == -1 then s else s[..k] + rep + Replace(s[k + |pat|..], pat, rep)
  }

  /** Replacing a non-empty pattern by itself changes nothing. */
  lemma {:induction false} ReplaceBySelf(s: string, pat: string)
    requires pat != []
    ensures Replace(s, pat, pat) == s
    decreases |s|
  {
    var k := Find(s, pat);
    if k != -1 {
      var rest := s[k + |pat|..];
      ReplaceUnfold(s, pat, pat);
      ReplaceBySelf(rest, pat);
      Recompose(s, pat, k);
    }
  }

  /** Replace acts at the first occurrence `Find` reports, then resumes after it. */
  lemma ReplaceUnfold(s: string, pat: string, rep: string)
    requires pat != [] && Find(s, pat) != -1
    ensures var k := Find(s, pat);
      Replace(s, pat, rep) == s[..k] + rep + Replace(s[k + |pat|..], pat, rep)
  {
  }

  /** A text is what precedes an occurrence, the occurrence, and what follows it. */
  lemma Recompose(s: string, pat: string, k: nat)
    requires OccursAt(s, pat, k)
    ensures s[..k] + pat + s[k + |pat|..] == s
  {
    assert s[k..k + |pat|] == pat;
  }

  /** Concatenation is associative. */
  lemma ConcatAssoc<T>(a: seq<T>, b: seq<T>, c: seq<T>)
    ensures a + b + c == a + (b + c)
  {
  }

  /** `s.rstrip(c)` for a single character `c`: drops every trailing `c`. */
  function RStrip(s: string, c: char): (r: string)
    ensures |r| <= |s| && r == s[..|r|]
    ensures r == [] || r[|r| - 1] != c
    ensures forall j :: |r| <= j < |s| ==> s[j] == c
  {
    if s != [] && s[|s| - 1] == c then RStrip(s[..|s| - 1], c) else s
  }

  /** `s.ljust(width, c)`: pads `s` on the right with `c` up to `width`; never truncates. */
  function LJust(s: string, width: nat, c: char): (r: string)
    ensures |r| == if |s| < width then width else |s|
    ensures r[..|s|] == s
    ensures forall j :: |s| <= j < |r| ==> r[j] == c
  {
    if |s| < width then s + seq(width - |s|, _ => c) else s
  }

  /** `sep.join(xs)`. */
  function Join(xs: seq<string>, sep: string): string
  {
    if xs == [] then []
    else if |xs| == 1 then xs[0]
    else Join(xs[..|xs| - 1], sep) + sep + xs[|xs| - 1]
  }
}

=== FILE: wrappers.dfy ===
/** The optional-value datatype used across the model. */
module Wrappers {

  datatype Option<T> = None | Some(value: T)
}
